=== FILE: README.md ===
# Water catalogue front end: the pure fragments

The lake and route catalogue has two web clients: a Preact "islands" admin panel and a React
multi-page client. Nearly all of their code is markup and `fetch` plumbing. This project models
the few fragments that behave in ways you can state exactly. It writes each as a pure Dafny
function over immutable data. A React or Preact state setter becomes "return the next state".

- **Map page** (`MapPage`). The marker search is a filter: the name contains the query,
  ignoring case, and the rating lies in the inclusive slider range. Deleting an id removes
  every marker with that id. The view then shows the whole updated list, which drops any
  active filter.
- **Attribute search** (`AttributeSearch`). The same filter over the page's fixed list of
  three lakes, with a slider over 0..1000.
- **Table helpers** (`DataTable`). Header titles with `_` shown as a space. One "Нет данных"
  placeholder row for empty data. Rows striped `bg-nord4`/`bg-nord5`. One cell per value,
  rendered by kind. A GeoJSON point is shown as two coordinates whose integer part is
  left-padded with `0` to two characters. The admin data display holds a verbatim copy of these
  helpers (`frontend/islands/DataDisplay.tsx:194-264`), so `DataTable` models both copies.
  A point with fewer than two coordinates throws a `TypeError`. The exception leaves both
  `map` calls, so the whole table fails to render, and the model returns `None` for it.
- **Admin data display** (`DataDisplay`). The category select, the "+" toggle, and each
  category's inputs. Every input's `onChange` replaces one form property. Each input shows its
  stored value by `||` or by `!== undefined`. The form is reset on a category change and after
  a successful add.
- **New password** (`NewPassword`). Saving alerts when the two entries differ. Otherwise it
  navigates to `/settings`.

Shared pieces:

- `SeqFilter` holds `Array.prototype.filter` with its subsequence, soundness, completeness,
  multiplicity and idempotence lemmas.
- `Text` models the string built-ins the fragments call: `toLowerCase`, `includes`,
  `replace(/_/g, " ")`, `padStart`, `split` and `join`.
- `Search` is the name-and-rating condition that both search pages use.
- `Options` is an optional-value type for `undefined` properties.

Numbers are Dafny `real`s. A JavaScript number without NaN or Infinity is a real, and the
fragments only compare, store and display numbers. The host's `toFixed(6)`, `Number(...)` and
`JSON.stringify` are parameters of the model: `DataTable.Host` and `toNumber`.

## Model

| member | source | states |
|---|---|---|
| SeqFilter.Filter | frontendReact/src/pages/MapPage.tsx:66-71 | the result is no longer than the input, holds only elements the callback accepts, and holds every accepted element of the input |
| SeqFilter.FilterIsSubsequence | frontendReact/src/pages/MapPage.tsx:66-71 | the filtered list is a subsequence of the input: original order, nothing invented |
| SeqFilter.FilterMultiplicity | frontendReact/src/pages/MapPage.tsx:77 | an accepted value occurs as often as in the input, a rejected one not at all |
| SeqFilter.FilterKeepsAll | frontendReact/src/pages/AttributeSearch.tsx:52-57 | when the callback accepts every element the list comes back unchanged |
| SeqFilter.FilterDropsAll | frontendReact/src/pages/AttributeSearch.tsx:52-57 | when the callback rejects every element the result is empty |
| SeqFilter.FilterIdempotent | frontendReact/src/pages/MapPage.tsx:65-72 | filtering the result again with the same callback changes nothing |
| SeqFilter.FilterAppend | frontendReact/src/pages/AttributeSearch.tsx:52-57 | filtering a concatenation is the concatenation of the filtered parts |
| Text.LowerChar | frontendReact/src/pages/MapPage.tsx:68 | `toLowerCase` on one character: A-Z move to a-z and А-Я to а-я (32 code points up), Ё becomes ё, every other character is kept, and the result is never a capital |
| Text.Lower | frontendReact/src/pages/MapPage.tsx:68 | `toLowerCase` keeps the length, turns every capital into its lower-case letter, keeps every other character, and leaves no capital behind |
| Text.LowerIdempotent | frontendReact/src/pages/AttributeSearch.tsx:54 | lower-casing an already lower-cased string changes nothing |
| Text.Contains | frontendReact/src/pages/MapPage.tsx:68 | `includes` never finds a query longer than the text, and always finds the empty query |
| Text.Join | frontend/islands/DataTable.tsx:94 | `join` of no parts is `""`, and a join of one or more parts starts with the first part |
| Text.ContainsIff | frontendReact/src/pages/MapPage.tsx:68 | the left-to-right `includes` scan succeeds exactly when some position starts an occurrence, in both directions |
| Text.ContainsFound | frontendReact/src/pages/MapPage.tsx:68 | a successful scan yields a position where the query occurs |
| Text.OccurrenceContained | frontendReact/src/pages/MapPage.tsx:68 | every occurrence at any position makes the scan succeed |
| Text.ContainsEmpty | frontendReact/src/pages/MapPage.tsx:68 | every string includes the empty query |
| Text.ContainsSuffix | frontendReact/src/pages/AttributeSearch.tsx:54 | a string includes its own tail |
| Text.MissingCharNotContained | frontendReact/src/pages/AttributeSearch.tsx:54 | a query with a character the text lacks is not included |
| Text.LowerKeepsCaselessOut | frontendReact/src/pages/AttributeSearch.tsx:54 | lower-casing never introduces a digit or other caseless character |
| Text.LowerPreservesContains | frontendReact/src/pages/MapPage.tsx:68 | a case-sensitive occurrence survives lower-casing both sides |
| Text.ReplaceAll | frontend/islands/DataTable.tsx:52 | `replace(/_/g, " ")`: same length, every `from` becomes `to`, every other character is kept |
| Text.PadStart | frontend/islands/DataTable.tsx:93 | the result has at least the target length, ends with the input, and only fill characters precede it |
| Text.Split | frontend/islands/DataTable.tsx:92 | `split` always yields at least one piece |
| Text.SplitWithoutSeparator | frontend/islands/DataTable.tsx:92 | a string without the separator splits into itself alone |
| Text.SplitAfterPiece | frontend/islands/DataTable.tsx:92 | a separator-free piece followed by the separator is split off as the first piece |
| Text.SplitPiecesSeparatorFree | frontend/islands/DataTable.tsx:92 | no piece of a split contains the separator |
| Text.JoinSplit | frontend/islands/DataTable.tsx:92-94 | joining the pieces of a split with the same separator gives the string back |
| Text.SplitJoin | frontend/islands/DataTable.tsx:92-94 | splitting a join of separator-free pieces gives the pieces back |
| Text.JoinCons | frontend/islands/DataTable.tsx:102 | `join` puts the separator between the first element and the join of the rest |
| Text.ReplaceWholeString | frontend/islands/DataTable.tsx:92-94 | with no separator, replacing the first piece and joining gives just the new piece |
| Text.ReplacePieceBeforeSeparator | frontend/islands/DataTable.tsx:92-94 | replacing the first piece and joining keeps the separator and everything after it |
| Text.SplitPair | frontend/islands/DataTable.tsx:104-107 | two separator-free strings joined by the separator split back into exactly those two |
| Search.NameAndRatingMatch | frontendReact/src/pages/MapPage.tsx:67-70 | a match needs the rating within the bounds and a query no longer than the name, so inverted bounds match nothing |
| Search.EmptyQueryMatchesByRating | frontendReact/src/pages/MapPage.tsx:68-70 | with an empty query the name test always passes, so a marker matches exactly when its rating is in range |
| Search.VerbatimNameMatches | frontendReact/src/pages/AttributeSearch.tsx:54-56 | a name that includes the query as typed matches in any letter case once the rating fits |
| MapPage.MarkersLoaded | frontendReact/src/pages/MapPage.tsx:51 | a load replaces the marker list and changes nothing else: the shown markers, the query and both bounds stay as they were |
| MapPage.SetSearch | frontendReact/src/pages/MapPage.tsx:100 | typing changes the query only |
| MapPage.SetRatingRange | frontendReact/src/pages/MapPage.tsx:107-111 | the slider sets both bounds together and nothing else |
| MapPage.SearchMarkers | frontendReact/src/pages/MapPage.tsx:66-71 | the result is an order-preserving subsequence of the markers, holds only matching markers, and holds every matching marker as many times as the markers do |
| MapPage.DeleteMarker | frontendReact/src/pages/MapPage.tsx:77 | no marker with the id remains, every other marker stays in order with its multiplicity, and an absent id leaves the list unchanged |
| MapPage.HandleSearch | frontendReact/src/pages/MapPage.tsx:65-73 | only the shown markers change, and they are exactly the matching markers in list order, each with its number of occurrences |
| MapPage.HandleDeleteMarker | frontendReact/src/pages/MapPage.tsx:76-80 | a marker remains if and only if it was there with another id, every remaining marker keeps its number of occurrences, an absent id leaves the list unchanged, and the shown list becomes the whole remaining list |
| MapPage.SearchIdempotent | frontendReact/src/pages/MapPage.tsx:65-72 | searching the search result again with the same query and bounds returns it unchanged |
| MapPage.HandleSearchIdempotent | frontendReact/src/pages/MapPage.tsx:65-73 | pressing "apply filters" twice shows what pressing it once shows |
| MapPage.InvertedRangeFindsNothing | frontendReact/src/pages/MapPage.tsx:69-70 | a lower bound above the upper bound finds no marker, whatever the query |
| MapPage.EmptySearchFiltersByRating | frontendReact/src/pages/MapPage.tsx:66-71 | with an empty query a marker is found if and only if its rating is within the bounds |
| MapPage.DefaultsFindAllRated | frontendReact/src/pages/MapPage.tsx:59-61 | with the initial query and bounds 1 and 5 every marker rated 1 to 5 is found, in order |
| MapPage.DeleteShowsFilteredOutMarkers | frontendReact/src/pages/MapPage.tsx:76-80 | a marker the rating filter hid is shown again after another id is deleted |
| MapPage.RatingRangeHidesLow | frontendReact/src/pages/MapPage.tsx:66-71 | a range above one marker's rating and around another's keeps only the second |
| MapPage.LoadedMarkersHiddenUntilSearch | frontendReact/src/pages/MapPage.tsx:62 | right after loading the map shows no marker; the first search shows every marker in range |
| AttributeSearch.SetSearchQuery | frontendReact/src/pages/AttributeSearch.tsx:77 | typing changes the query only |
| AttributeSearch.SetRange | frontendReact/src/pages/AttributeSearch.tsx:83-87 | the slider sets both bounds together and nothing else |
| AttributeSearch.HandleFilter | frontendReact/src/pages/AttributeSearch.tsx:51-59 | only the results change; they are an order-preserving subsequence of the three lakes, every one matches, and every matching lake is there |
| AttributeSearch.NoResultsBeforeFilter | frontendReact/src/pages/AttributeSearch.tsx:22-25 | editing the query or the range shows no result until the filter is applied |
| AttributeSearch.EmptyQueryKeepsInRange | frontendReact/src/pages/AttributeSearch.tsx:52-57 | with an empty query a list whose ratings are all in range is returned whole |
| AttributeSearch.DefaultsReturnEverything | frontendReact/src/pages/AttributeSearch.tsx:22-49 | no results at first; with the defaults (empty query, 0..1000) all three lakes are returned in order |
| AttributeSearch.LowRangeReturnsNothing | frontendReact/src/pages/AttributeSearch.tsx:55-56 | a range below every rating returns nothing for any query |
| AttributeSearch.HighRangeKeepsTopRated | frontendReact/src/pages/AttributeSearch.tsx:27-57 | the range 4..5 keeps the lakes rated 4 and 5 and drops the one rated 3 |
| AttributeSearch.UpperCaseQueryFindsOneLake | frontendReact/src/pages/AttributeSearch.tsx:54 | the query "ОЗЕРА 2" ignores case and finds exactly the second lake |
| AttributeSearch.NoSecondLakeIn | frontendReact/src/pages/AttributeSearch.tsx:54 | a name without the digit 2 never includes "озера 2" |
| DataTable.Keys | frontend/islands/DataTable.tsx:47 | one key per property of the record, the `i`-th key being the `i`-th property's name |
| DataTable.Values | frontend/islands/DataTable.tsx:80 | one value per property of the record, the `i`-th value being the `i`-th property's value |
| DataTable.HeaderLabel | frontend/islands/DataTable.tsx:52 | the title has the key's length, no `_`, a space wherever the key had `_`, and the key's character everywhere else |
| DataTable.RenderTableHeaders | frontend/islands/DataTable.tsx:43-57 | no header row if and only if the data is empty; otherwise one title per key of the first item, in key order |
| DataTable.HeaderLabelIdempotent | frontend/islands/DataTable.tsx:52 | relabelling a title changes nothing |
| DataTable.HeaderLabelNotInjective | frontend/islands/DataTable.tsx:52 | a key with `_` and the same key with a space get the same title |
| DataTable.HeadersFollowFirstItem | frontend/islands/DataTable.tsx:44-47 | two data lists with the same first item get the same titles |
| DataTable.FormatCoordinate | frontend/islands/DataTable.tsx:90-95 | a formatted coordinate is at least two characters long, and starts with `0` when the integer part of its `toFixed(6)` digits had fewer than two characters |
| DataTable.FormatDigits | frontend/islands/DataTable.tsx:90-95 | a formatted coordinate is at least two characters long, and starts with `0` when its integer part had fewer than two characters |
| DataTable.IntegerPartPadded | frontend/islands/DataTable.tsx:90-94 | with a dot, the integer part is left-padded with `0` to two characters and the dot and fraction are kept |
| DataTable.WholeNumberPadded | frontend/islands/DataTable.tsx:90-94 | digits without a dot are left-padded as a whole |
| DataTable.FormatDigitsPadsIntegerPart | frontend/islands/DataTable.tsx:90-94 | for any digit string, only the part before the first dot is padded and the rest is kept character for character |
| DataTable.OneDigitIsPadded | frontend/islands/DataTable.tsx:93 | a one-character integer part gains one leading `0` |
| DataTable.LongIntegerPartKept | frontend/islands/DataTable.tsx:93 | an integer part of two characters or more, a sign included, is kept as it is |
| DataTable.RenderCell | frontend/islands/DataTable.tsx:97-112 | null and undefined show `""`; strings and numbers pass through; arrays are joined by `", "`; a point shows its first two coordinates formatted and separated by one space; a point with fewer than two coordinates throws, and nothing else does; a polygon shows its JSON |
| DataTable.PointRendersTwoCoordinates | frontend/islands/DataTable.tsx:103-107 | a point's text splits at spaces into exactly its two formatted coordinates |
| DataTable.NoSpaceAfterFormatting | frontend/islands/DataTable.tsx:90-94 | formatting adds only zeros, so space-free digits stay space-free |
| DataTable.ArrayCellExamples | frontend/islands/DataTable.tsx:97-102 | an empty array shows like a missing value, and a one-element array shows like its element |
| DataTable.ArrayCellSeparates | frontend/islands/DataTable.tsx:102 | the first string of a longer array is followed by `", "` and the join of the rest |
| DataTable.PlaceholderColSpan | frontend/islands/DataTable.tsx:65 | the column span is at least 1, and exactly 1 for empty data (`data[0]` is then undefined) |
| DataTable.Stripe | frontend/islands/DataTable.tsx:75-77 | the row colour is `bg-nord4` exactly for even indices and `bg-nord5` otherwise |
| DataTable.RenderValues | frontend/islands/DataTable.tsx:80-84 | the `map` over the values fails if and only if some value throws; otherwise it gives one cell per value, each that value's rendering, in order |
| DataTable.RenderCells | frontend/islands/DataTable.tsx:80-84 | a row's cells fail if and only if some property of the item throws; otherwise one cell per property, in key order |
| DataTable.RenderTableRows | frontend/islands/DataTable.tsx:59-87 | empty data gives exactly the placeholder row with span 1; the render fails if and only if some cell of some item throws; otherwise one data row per item, keyed and striped by its index, holding that item's cells |
| DataTable.RenderRowsFrom | frontend/islands/DataTable.tsx:73-86 | the `map` over the items from an index on fails if and only if one of those items throws; otherwise it gives one row per item with its index as key |
| DataTable.PlaceholderOnlyWhenEmpty | frontend/islands/DataTable.tsx:60-71 | when the table renders, some row is the placeholder if and only if there is no data, and there is always at least one row |
| DataTable.StripesAlternate | frontend/islands/DataTable.tsx:73-78 | when the table renders, the first row is `bg-nord4`, neighbouring rows differ, and row `i` is `bg-nord4` when `i` is even and `bg-nord5` when odd |
| DataTable.RowsMayOutgrowHeaders | frontend/islands/DataTable.tsx:47-80 | titles follow the first item only, so a later item with more properties gets more cells than there are titles |
| DataTable.ShortPointFailsTable | frontend/islands/DataTable.tsx:103-106 | a point with one coordinate makes the whole table fail, whatever well-formed items come before it |
| DataDisplay.CategoryName | frontend/islands/DataDisplay.tsx:145-149 | each category's name is one of the select's option values |
| DataDisplay.CategoryNamesMatchOptions | frontend/islands/DataDisplay.tsx:145-149 | distinct categories have distinct option values, and every option value names a category |
| DataDisplay.EntityKeys | frontend/islands/DataDisplay.tsx:7-51 | every entity's properties start with `id` and have no repeats; only users have `avatar_url` and only points have `coordinates` |
| DataDisplay.EmptyFormHasNoFields | frontend/islands/DataDisplay.tsx:79 | the form is `{}` if and only if no property is set |
| DataDisplay.RenderInputs | frontend/islands/DataDisplay.tsx:271-284 | each input writes a property of the category's entity, none writes `avatar_url`, and only routes have no inputs |
| DataDisplay.Position | frontend/islands/DataDisplay.tsx:336 | `coordinates?.coordinates.at(i)` is set exactly when the form has a point with more than `i` coordinates, and is then its `i`-th coordinate |
| DataDisplay.OrNumber | frontend/islands/DataDisplay.tsx:346 | the JavaScript or-operator of an optional number with a fallback keeps a set non-zero number and otherwise gives the fallback |
| DataDisplay.OnChange | frontend/islands/DataDisplay.tsx:299-505 | each input changes only its own property; text is stored as typed, numbers as `Number(value)`; a coordinate input stores a `"Point"` that keeps the other coordinate, or 0 when it is missing or 0 |
| DataDisplay.CoordinatesFromBothInputs | frontend/islands/DataDisplay.tsx:337-370 | typing x then y into the two coordinate inputs gives the point (x, y) |
| DataDisplay.CoordinateEditKeepsOther | frontend/islands/DataDisplay.tsx:337-370 | editing one coordinate keeps the other one, or sets it to 0 when it was absent |
| DataDisplay.ShowText | frontend/islands/DataDisplay.tsx:298 | the or-operator with `""` on an optional string shows the string, or nothing when it is unset |
| DataDisplay.ShowTruthyNumber | frontend/islands/DataDisplay.tsx:381 | the or-operator with `""` on an optional number is blank exactly when the number is unset or 0, and otherwise shows it |
| DataDisplay.ShowDefinedNumber | frontend/islands/DataDisplay.tsx:450 | `value !== undefined ? value : ""` is blank exactly when the number is unset, and otherwise shows it, 0 included |
| DataDisplay.Displayed | frontend/islands/DataDisplay.tsx:298-500 | a text input always shows text; an input shows a number exactly when it is a number input that is not blank; only depth and salinity can show a 0 |
| DataDisplay.TypedTextIsShown | frontend/islands/DataDisplay.tsx:298-303 | a text input shows exactly what was typed into it |
| DataDisplay.TypedNumberIsShown | frontend/islands/DataDisplay.tsx:381-468 | depth and salinity show any stored number; availability and the coordinates show a stored 0 as blank |
| DataDisplay.ZeroDisplayRules | frontend/islands/DataDisplay.tsx:381-464 | a stored 0 looks blank for availability, like the empty form, but shows as 0 for depth and salinity |
| DataDisplay.SelectCategory | frontend/islands/DataDisplay.tsx:137-143 | the category is set, the form becomes `{}` with every input blank, and the table empties while it reloads |
| DataDisplay.DataLoaded | frontend/islands/DataDisplay.tsx:95-96 | a successful load replaces the data and nothing else |
| DataDisplay.ToggleAddEntry | frontend/islands/DataDisplay.tsx:153-155 | the "+" button flips whether the form is shown and changes nothing else |
| DataDisplay.ToggleTwiceRestores | frontend/islands/DataDisplay.tsx:153-155 | pressing "+" twice restores the state |
| DataDisplay.Edit | frontend/islands/DataDisplay.tsx:119 | typing into the form changes only the form, and in it only the input's property |
| DataDisplay.AddEntryAnswered | frontend/islands/DataDisplay.tsx:107-113 | a non-ok answer changes nothing; an ok answer clears the form and empties the table for the reload |
| DataDisplay.View | frontend/islands/DataDisplay.tsx:182-188 | the render fails if and only if some cell of the data throws; otherwise the inputs appear if and only if the form is open, and the table is drawn by the table helpers |
| DataDisplay.ClearedTableShowsPlaceholder | frontend/islands/DataDisplay.tsx:210-222 | after a category change or a successful add the screen renders and the table shows only the placeholder row, with no header after a category change |
| DataDisplay.AvatarUrlNeverTyped | frontend/islands/DataDisplay.tsx:287-510 | any sequence of typing into any inputs leaves `avatar_url` unset, since no input writes it |
| NewPassword.SetPassword | frontendReact/src/pages/NewPassword.tsx:40 | typing sets the password and keeps the confirmation |
| NewPassword.SetConfirmPassword | frontendReact/src/pages/NewPassword.tsx:49 | typing sets the confirmation and keeps the password |
| NewPassword.HandleSave | frontendReact/src/pages/NewPassword.tsx:10-18 | saving keeps both entries; it navigates if and only if they are equal, and then to `/settings`; otherwise it alerts "Пароли не совпадают!" |
| NewPassword.SameEntriesNavigate | frontendReact/src/pages/NewPassword.tsx:10-17 | typing the same text into both fields always leads to `/settings` |
| NewPassword.ExactComparison | frontendReact/src/pages/NewPassword.tsx:11 | two empty entries pass; a trailing space or a different letter case fails |
| NewPassword.RepeatedSaveSameEffect | frontendReact/src/pages/NewPassword.tsx:10-18 | saving again after a save has the same effect, because saving never edits the entries |

## Left out

- Data loading is not modelled: `fetch`, `AbortController`, `useEffect` and the `catch` logging in `MapPage.tsx:45-57`, `DataTable.tsx:17-31` and `DataDisplay.tsx:82-97`. Their outcomes are inputs: `MarkersLoaded`, `DataLoaded`, and the `ok` flag of `AddEntryAnswered`. The synchronous `setData([])` that starts every reload is modelled.
- MarkersLoaded assumes the fetched `/points` JSON has the shape of `MarkerData`, with a `name` and a `rating`. `setMarkers(data)` (`MapPage.tsx:51`) stores whatever arrives. The backend's `Point` (`backend/main.py:26-30`) has neither field, and with such data `marker.name.toLowerCase()` (`MapPage.tsx:68`) would throw for any non-empty list. The model does not represent that mismatch.
- The category select also triggers a reload that reads the old `category` (`DataDisplay.tsx:137-143`). That race between two requests is asynchrony and is not modelled. `SelectCategory` models only the synchronous state changes.
- The select's `value as DataCategory` cast is not checked in the source. `SelectCategory` takes a `Category` directly, because the select only offers the five option values (`CategoryNamesMatchOptions`).
- The POST body `JSON.stringify(formData)` is not modelled, because it is serialisation done by the host.
- DataTable.RenderCell: `toFixed(6)` and `JSON.stringify` are host functions the model takes as parameters, so the digits of a coordinate and a polygon's text are not computed.
- DataDisplay.OnChange: `Number(value)` is the parameter `toNumber`. Its parsing, and the NaN it gives for bad text, are not modelled.
- Text.LowerChar: lower-cases ASCII and the basic Cyrillic alphabet (with Ё) only, not every Unicode case mapping that `toLowerCase` performs.
- NaN and the infinities are not modelled: numbers are reals, and truthiness is `n != 0`.
- The `default: return null` branch of `renderInputs` and the `String(value)` fallback of `renderCellValue` cannot be reached with the typed values, so the model has no case for them.
- A GeoJSON position with a third (altitude) number keeps only its first two in the rendered text. The model shows this: `RenderCell` uses the first two coordinates.
- `alert` and `navigate` are not performed: `HandleSave` returns them as an `Effect` value. The `console.log` of the saved password (`NewPassword.tsx:15`) is not modelled. The "back" button (`navigate(-1)`, `NewPassword.tsx:64`) is routing and is not modelled.
- Markup, CSS classes other than the row stripes, the Leaflet map, the card list, and the routing and stub pages are not modelled. The same goes for Navbar, Sidebar, Layout and ImportExport, and for the Python backend and migrations. None of them holds logic beyond rendering or I/O.

=== FILE: attribute_search.dfy ===
/**
 * The attribute search page of the React client: a fixed list of three lakes
 * filtered by a name query and a slider over the rating ("attribute 1").
 */
module AttributeSearch {
  import opened SeqFilter
  import opened Text
  import opened Search

  datatype AttributeData = AttributeData(id: int, name: string, address: string, rating: real, image: string)

  const Placeholder: string := "https://via.placeholder.com/150"

  /** The page's hard-coded catalogue. */
  const Data: seq<AttributeData> := [
    AttributeData(1, "Название озера 1", "Адрес 1", 4.0, Placeholder),
    AttributeData(2, "Название озера 2", "Адрес 2", 5.0, Placeholder),
    AttributeData(3, "Название озера 3", "Адрес 3", 3.0, Placeholder)
  ]

  datatype State = State(minAttr1: real, maxAttr1: real, searchQuery: string, filteredResults: seq<AttributeData>)

  /** Slider from 0 to 1000, empty query, and no results until the filter is applied. */
  const Initial: State := State(0.0, 1000.0, "", [])

  /** The callback handed to `filter` by `handleFilter`. */
  function Matcher(query: string, lo: real, hi: real): AttributeData -> bool
  {
    (item: AttributeData) => NameAndRatingMatch(item.name, item.rating, query, lo, hi)
  }

  function SetSearchQuery(st: State, text: string): (r: State)
    ensures r.searchQuery == text
    ensures r == st.(searchQuery := r.searchQuery)
  {
    st.(searchQuery := text)
  }

  function SetRange(st: State, lo: real, hi: real): (r: State)
    ensures r.minAttr1 == lo && r.maxAttr1 == hi
    ensures r == st.(minAttr1 := r.minAttr1, maxAttr1 := r.maxAttr1)
  {
    st.(minAttr1 := lo, maxAttr1 := hi)
  }

  /** `handleFilter`: the matching catalogue items, in catalogue order, become the results. */
  function HandleFilter(st: State): (r: State)
    ensures r == st.(filteredResults := r.filteredResults)
    ensures IsSubsequence(r.filteredResults, Data)
    ensures forall item :: item in r.filteredResults ==>
              NameAndRatingMatch(item.name, item.rating, st.searchQuery, st.minAttr1, st.maxAttr1)
    ensures forall item :: item in Data && NameAndRatingMatch(item.name, item.rating, st.searchQuery, st.minAttr1, st.maxAttr1) ==>
              item in r.filteredResults
  {
    var keep := Matcher(st.searchQuery, st.minAttr1, st.maxAttr1);
    FilterIsSubsequence(Data, keep);
    st.(filteredResults := Filter(Data, keep))
  }

  /** Typing a query or moving the slider shows nothing until the filter is applied. */
  lemma NoResultsBeforeFilter(query: string, lo: real, hi: real)
    ensures SetSearchQuery(Initial, query).filteredResults == []
    ensures SetRange(SetSearchQuery(Initial, query), lo, hi).filteredResults == []
  {
  }

  /** With an empty query every item whose rating is in range is returned, in order. */
  lemma EmptyQueryKeepsInRange(items: seq<AttributeData>, lo: real, hi: real)
    requires forall i :: 0 <= i < |items| ==> lo <= items[i].rating <= hi
    ensures Filter(items, Matcher("", lo, hi)) == items
  {
    forall i | 0 <= i < |items| ensures Matcher("", lo, hi)(items[i]) {
      EmptyQueryMatchesByRating(items[i].name, items[i].rating, lo, hi);
    }
    FilterKeepsAll(items, Matcher("", lo, hi));
  }

  /** No results are shown before the first filter; with the defaults all three lakes are returned. */
  lemma DefaultsReturnEverything()
    ensures Initial.filteredResults == []
    ensures HandleFilter(Initial).filteredResults == Data
    ensures |HandleFilter(Initial).filteredResults| == 3
  {
    EmptyQueryKeepsInRange(Data, 0.0, 1000.0);
  }

  /** A slider range that excludes every rating (here 0..2) returns nothing, whatever the query. */
  lemma LowRangeReturnsNothing(query: string)
    ensures HandleFilter(SetRange(SetSearchQuery(Initial, query), 0.0, 2.0)).filteredResults == []
  {
    FilterDropsAll(Data, Matcher(query, 0.0, 2.0));
  }

  /** Narrowing the slider to 4..5 keeps the first two lakes only. */
  lemma HighRangeKeepsTopRated()
    ensures HandleFilter(SetRange(Initial, 4.0, 5.0)).filteredResults == [Data[0], Data[1]]
  {
    var keep := Matcher("", 4.0, 5.0);
    var tail := [Data[2]];
    assert Filter(tail, keep) == [] by {
      FilterDropsAll(tail, keep);
    }
    var front := [Data[0], Data[1]];
    EmptyQueryKeepsInRange(front, 4.0, 5.0);
    FilterAppend(front, tail, keep);
    assert Data == front + tail;
  }

  /** The query ignores letter case: "ОЗЕРА 2" finds exactly the second lake. */
  lemma UpperCaseQueryFindsOneLake()
    ensures HandleFilter(SetSearchQuery(Initial, "ОЗЕРА 2")).filteredResults == [Data[1]]
  {
    FirstLakeMissed();
    SecondLakeFound();
    ThirdLakeMissed();
    OnlyMiddleKept(Data[0], Data[1], Data[2], Matcher("ОЗЕРА 2", 0.0, 1000.0));
  }

  lemma FirstLakeMissed()
    ensures !NameAndRatingMatch(Data[0].name, Data[0].rating, "ОЗЕРА 2", 0.0, 1000.0)
  {
    NoSecondLakeIn(Data[0].name);
  }

  lemma SecondLakeFound()
    ensures NameAndRatingMatch(Data[1].name, Data[1].rating, "ОЗЕРА 2", 0.0, 1000.0)
  {
    QueryLowered();
    SecondNameLowered();
    ContainsSuffix("название ", "озера 2");
  }

  lemma ThirdLakeMissed()
    ensures !NameAndRatingMatch(Data[2].name, Data[2].rating, "ОЗЕРА 2", 0.0, 1000.0)
  {
    NoSecondLakeIn(Data[2].name);
  }

  /** A name without the digit 2 cannot hold "озера 2" in any case. */
  lemma NoSecondLakeIn(name: string)
    requires '2' !in name
    ensures !Contains(Lower(name), Lower("ОЗЕРА 2"))
  {
    QueryLowered();
    LowerKeepsCaselessOut(name, '2');
    MissingCharNotContained(Lower(name), "озера 2", '2');
  }

  lemma QueryLowered()
    ensures Lower("ОЗЕРА 2") == "озера 2"
  {
  }

  lemma SecondNameLowered()
    ensures Lower(Data[1].name) == "название " + "озера 2"
  {
    assert Data[1].name == "Название " + "озера 2";
    LowerAppend("Название ", "озера 2");
    assert Lower("Название ") == "название ";
    assert Lower("озера 2") == "озера 2";
  }

  lemma OnlyMiddleKept<T>(a: T, b: T, c: T, keep: T -> bool)
    requires !keep(a) && keep(b) && !keep(c)
    ensures Filter([a, b, c], keep) == [b]
  {
    assert [a, b, c][1..] == [b, c];
    assert [b, c][1..] == [c];
    assert [c][1..] == [];
    assert Filter([c], keep) == [];
    assert Filter([b, c], keep) == [b];
  }
}

=== FILE: data_display.dfy ===
/**
 * The admin data display: a category select, a "+" button that shows or
 * hides the add-entry form, the form's per-category inputs, and the data
 * table. React state updates are modelled as functions returning the next
 * `State`; the HTTP calls are replaced by their outcomes.
 */
module DataDisplay {
  import opened Options
  import opened DataTable

  datatype Category = Users | Points | Routes | Lakes | SupportRequests

  /** The option values of the category select, in the order they are listed. */
  const OptionValues: seq<string> := ["users", "points", "routes", "lakes", "support-requests"]

  /** The `value` of each option of the category select; it is also the backend path. */
  function CategoryName(c: Category): (name: string)
    ensures name in OptionValues
  {
    match c
    case Users => "users"
    case Points => "points"
    case Routes => "routes"
    case Lakes => "lakes"
    case SupportRequests => "support-requests"
  }

  /** The option values and the categories correspond one to one. */
  lemma CategoryNamesMatchOptions(c: Category, d: Category)
    ensures CategoryName(c) == CategoryName(d) ==> c == d
    ensures forall k :: 0 <= k < |OptionValues| ==> exists e :: CategoryName(e) == OptionValues[k]
  {
    assert CategoryName(Users) == OptionValues[0] && CategoryName(Points) == OptionValues[1];
    assert CategoryName(Routes) == OptionValues[2] && CategoryName(Lakes) == OptionValues[3];
    assert CategoryName(SupportRequests) == OptionValues[4];
  }

  /** The properties of each entity, in declaration order. */
  function EntityKeys(c: Category): (keys: seq<string>)
    ensures |keys| > 0 && keys[0] == "id"
    ensures forall i, j :: 0 <= i < j < |keys| ==> keys[i] != keys[j]
    ensures "avatar_url" in keys <==> c == Users
    ensures "coordinates" in keys <==> c == Points
  {
    match c
    case Users => ["id", "name", "email", "registration_date", "profile_update_date", "avatar_url"]
    case Points => ["id", "coordinates", "description", "availability"]
    case Routes => ["id", "points", "author", "popularity_score"]
    case Lakes => ["id", "name", "description", "coordinates_boundary", "availability_score",
                   "max_depth", "inflowing_rivers", "outflowing_rivers", "salinity"]
    case SupportRequests => ["id", "author", "route_reference", "lake_reference", "subject", "text", "date", "photo"]
  }

  // ------------------------------------------------------------- form data

  /** The GeoJSON point the coordinate inputs build. */
  datatype PointValue = PointValue(kind: string, coordinates: seq<real>)

  /** The add-entry form: every property is optional (`undefined` until typed in). */
  datatype FormData = FormData(
    email: Option<string>,
    avatarUrl: Option<string>,
    description: Option<string>,
    availability: Option<real>,
    author: Option<string>,
    name: Option<string>,
    maxDepth: Option<real>,
    salinity: Option<real>,
    subject: Option<string>,
    coordinates: Option<PointValue>)

  /** `{}`. */
  const EmptyForm: FormData := FormData(None, None, None, None, None, None, None, None, None, None)

  datatype Field = Email | AvatarUrl | Description | Availability | Author | Name | MaxDepth | Salinity | Subject | Coordinates

  datatype FieldValue = TextValue(s: string) | NumberValue(n: real) | GeometryValue(p: PointValue)

  /** The property name of each field in the JSON body. */
  function FieldKey(f: Field): string
  {
    match f
    case Email => "email"
    case AvatarUrl => "avatar_url"
    case Description => "description"
    case Availability => "availability"
    case Author => "author"
    case Name => "name"
    case MaxDepth => "max_depth"
    case Salinity => "salinity"
    case Subject => "subject"
    case Coordinates => "coordinates"
  }

  function AsText(o: Option<string>): Option<FieldValue>
  {
    match o
    case None => None
    case Some(s) => Some(TextValue(s))
  }

  function AsNumber(o: Option<real>): Option<FieldValue>
  {
    match o
    case None => None
    case Some(n) => Some(NumberValue(n))
  }

  /** Reading one property of the form. */
  function Get(form: FormData, f: Field): Option<FieldValue>
  {
    match f
    case Email => AsText(form.email)
    case AvatarUrl => AsText(form.avatarUrl)
    case Description => AsText(form.description)
    case Availability => AsNumber(form.availability)
    case Author => AsText(form.author)
    case Name => AsText(form.name)
    case MaxDepth => AsNumber(form.maxDepth)
    case Salinity => AsNumber(form.salinity)
    case Subject => AsText(form.subject)
    case Coordinates =>
      match form.coordinates
      case None => None
      case Some(p) => Some(GeometryValue(p))
  }

  /** Two forms agree on every property except possibly `f`. */
  predicate AgreeExcept(a: FormData, b: FormData, f: Field)
  {
    forall g: Field :: g != f ==> Get(a, g) == Get(b, g)
  }

  /** The form is `{}` exactly when no property is set. */
  lemma EmptyFormHasNoFields(form: FormData)
    ensures form == EmptyForm <==> forall f: Field :: Get(form, f).None?
  {
    if forall f: Field :: Get(form, f).None? {
      assert Get(form, Email).None? && Get(form, AvatarUrl).None? && Get(form, Description).None?;
      assert Get(form, Availability).None? && Get(form, Author).None? && Get(form, Name).None?;
      assert Get(form, MaxDepth).None? && Get(form, Salinity).None? && Get(form, Subject).None?;
      assert Get(form, Coordinates).None?;
    }
  }

  // ---------------------------------------------------------------- inputs

  /** The inputs of the add-entry forms. */
  datatype Input =
    | NameInput
    | EmailInput
    | FirstCoordinateInput
    | SecondCoordinateInput
    | AvailabilityInput
    | DescriptionInput
    | MaxDepthInput
    | SalinityInput
    | AuthorInput
    | SubjectInput

  /** The form property each input writes. */
  function FieldOf(input: Input): Field
  {
    match input
    case NameInput => Name
    case EmailInput => Email
    case FirstCoordinateInput => Coordinates
    case SecondCoordinateInput => Coordinates
    case AvailabilityInput => Availability
    case DescriptionInput => Description
    case MaxDepthInput => MaxDepth
    case SalinityInput => Salinity
    case AuthorInput => Author
    case SubjectInput => Subject
  }

  predicate IsTextInput(input: Input)
  {
    input.NameInput? || input.EmailInput? || input.DescriptionInput? || input.AuthorInput? || input.SubjectInput?
  }

  /** `renderInputs`: the inputs each category's form shows, top to bottom; routes have none. */
  function RenderInputs(c: Category): (inputs: seq<Input>)
    ensures forall k :: 0 <= k < |inputs| ==> FieldKey(FieldOf(inputs[k])) in EntityKeys(c)
    ensures forall k :: 0 <= k < |inputs| ==> FieldOf(inputs[k]) != AvatarUrl
    ensures |inputs| == 0 <==> c == Routes
  {
    match c
    case Users => [NameInput, EmailInput]
    case Points => [FirstCoordinateInput, SecondCoordinateInput, AvailabilityInput, DescriptionInput]
    case Routes => []
    case Lakes => [NameInput, DescriptionInput, MaxDepthInput, SalinityInput]
    case SupportRequests => [AuthorInput, SubjectInput]
  }

  /** JavaScript truthiness of a number (the model has no NaN). */
  predicate Truthy(n: real)
  {
    n != 0.0
  }

  /** `o || fallback` for an optional number. */
  function OrNumber(o: Option<real>, fallback: real): (r: real)
    ensures o.Some? && Truthy(o.value) ==> r == o.value
    ensures (o.None? || !Truthy(o.value)) ==> r == fallback
  {
    if o.Some? && Truthy(o.value) then o.value else fallback
  }

  /** `formData.coordinates?.coordinates.at(i)`. */
  function Position(form: FormData, i: nat): (r: Option<real>)
    ensures r.Some? <==> form.coordinates.Some? && i < |form.coordinates.value.coordinates|
    ensures r.Some? ==> r.value == form.coordinates.value.coordinates[i]
  {
    match form.coordinates
    case None => None
    case Some(p) => if i < |p.coordinates| then Some(p.coordinates[i]) else None
  }

  /**
   * The `onChange` handler of `input` with the typed text `value`: the form
   * spread with one property replaced. Numeric inputs store `Number(value)`,
   * which the model takes as the parameter `toNumber`.
   */
  function OnChange(form: FormData, input: Input, value: string, toNumber: string -> real): (r: FormData)
    ensures AgreeExcept(r, form, FieldOf(input))
    ensures IsTextInput(input) ==> Get(r, FieldOf(input)) == Some(TextValue(value))
    ensures input in {AvailabilityInput, MaxDepthInput, SalinityInput} ==>
              Get(r, FieldOf(input)) == Some(NumberValue(toNumber(value)))
    ensures input.FirstCoordinateInput? ==>
              r.coordinates == Some(PointValue("Point", [toNumber(value), OrNumber(Position(form, 1), 0.0)]))
    ensures input.SecondCoordinateInput? ==>
              r.coordinates == Some(PointValue("Point", [OrNumber(Position(form, 0), 0.0), toNumber(value)]))
  {
    match input
    case NameInput => form.(name := Some(value))
    case EmailInput => form.(email := Some(value))
    case DescriptionInput => form.(description := Some(value))
    case AuthorInput => form.(author := Some(value))
    case SubjectInput => form.(subject := Some(value))
    case AvailabilityInput => form.(availability := Some(toNumber(value)))
    case MaxDepthInput => form.(maxDepth := Some(toNumber(value)))
    case SalinityInput => form.(salinity := Some(toNumber(value)))
    case FirstCoordinateInput =>
      form.(coordinates := Some(PointValue("Point", [toNumber(value), OrNumber(Position(form, 1), 0.0)])))
    case SecondCoordinateInput =>
      form.(coordinates := Some(PointValue("Point", [OrNumber(Position(form, 0), 0.0), toNumber(value)])))
  }

  /** Typing into the two coordinate inputs in turn builds the point from both numbers. */
  lemma CoordinatesFromBothInputs(form: FormData, x: string, y: string, toNumber: string -> real)
    ensures var r := OnChange(OnChange(form, FirstCoordinateInput, x, toNumber), SecondCoordinateInput, y, toNumber);
            r.coordinates == Some(PointValue("Point", [toNumber(x), toNumber(y)]))
  {
    var mid := OnChange(form, FirstCoordinateInput, x, toNumber);
    assert Position(mid, 0) == Some(toNumber(x));
  }

  /** Editing one coordinate keeps the other; a missing other coordinate becomes 0. */
  lemma CoordinateEditKeepsOther(form: FormData, value: string, toNumber: string -> real)
    ensures Position(OnChange(form, FirstCoordinateInput, value, toNumber), 1) == Some(Position(form, 1).GetOr(0.0))
    ensures Position(OnChange(form, SecondCoordinateInput, value, toNumber), 0) == Some(Position(form, 0).GetOr(0.0))
  {
  }

  // --------------------------------------------------------------- display

  /** What an input shows: text, or a number. */
  datatype Shown = ShownText(text: string) | ShownNumber(n: real)

  const Blank: Shown := ShownText("")

  /** `value || ""` for an optional string. */
  function ShowText(o: Option<string>): (r: Shown)
    ensures r == ShownText(o.GetOr(""))
  {
    if o.Some? && o.value != "" then ShownText(o.value) else Blank
  }

  /** `value || ""` for an optional number. */
  function ShowTruthyNumber(o: Option<real>): (r: Shown)
    ensures r == Blank <==> o.None? || o.value == 0.0
    ensures r != Blank ==> r == ShownNumber(o.value)
  {
    if o.Some? && Truthy(o.value) then ShownNumber(o.value) else Blank
  }

  /** `value !== undefined ? value : ""`. */
  function ShowDefinedNumber(o: Option<real>): (r: Shown)
    ensures r == Blank <==> o.None?
    ensures o.Some? ==> r == ShownNumber(o.value)
  {
    if o.Some? then ShownNumber(o.value) else Blank
  }

  /** The `value` attribute of each input. */
  function Displayed(form: FormData, input: Input): (r: Shown)
    ensures IsTextInput(input) ==> r.ShownText?
    ensures r.ShownNumber? <==> !IsTextInput(input) && r != Blank
    ensures r.ShownNumber? && r.n == 0.0 ==> input == MaxDepthInput || input == SalinityInput
  {
    match input
    case NameInput => ShowText(form.name)
    case EmailInput => ShowText(form.email)
    case DescriptionInput => ShowText(form.description)
    case AuthorInput => ShowText(form.author)
    case SubjectInput => ShowText(form.subject)
    case AvailabilityInput => ShowTruthyNumber(form.availability)
    case MaxDepthInput => ShowDefinedNumber(form.maxDepth)
    case SalinityInput => ShowDefinedNumber(form.salinity)
    case FirstCoordinateInput => ShowTruthyNumber(Position(form, 0))
    case SecondCoordinateInput => ShowTruthyNumber(Position(form, 1))
  }

  /** A text input shows exactly what was typed into it. */
  lemma TypedTextIsShown(form: FormData, input: Input, value: string, toNumber: string -> real)
    requires IsTextInput(input)
    ensures Displayed(OnChange(form, input, value, toNumber), input) == ShownText(value)
  {
  }

  /**
   * Number inputs differ: depth and salinity show every stored number, while
   * availability and the coordinates (`||`) show a stored 0 as blank.
   */
  lemma TypedNumberIsShown(form: FormData, input: Input, value: string, toNumber: string -> real)
    requires input in {AvailabilityInput, MaxDepthInput, SalinityInput, FirstCoordinateInput, SecondCoordinateInput}
    ensures input in {MaxDepthInput, SalinityInput} ==>
              Displayed(OnChange(form, input, value, toNumber), input) == ShownNumber(toNumber(value))
    ensures input in {AvailabilityInput, FirstCoordinateInput, SecondCoordinateInput} ==>
              Displayed(OnChange(form, input, value, toNumber), input)
              == if toNumber(value) == 0.0 then Blank else ShownNumber(toNumber(value))
  {
  }

  /** A stored 0 is blank for availability but shown as 0 for depth and salinity. */
  lemma ZeroDisplayRules(form: FormData)
    requires form.availability == Some(0.0) && form.maxDepth == Some(0.0) && form.salinity == Some(0.0)
    ensures Displayed(form, AvailabilityInput) == Blank == Displayed(EmptyForm, AvailabilityInput)
    ensures Displayed(form, MaxDepthInput) == ShownNumber(0.0) != Displayed(EmptyForm, MaxDepthInput)
    ensures Displayed(form, SalinityInput) == ShownNumber(0.0) != Displayed(EmptyForm, SalinityInput)
  {
  }

  // ----------------------------------------------------------------- state

  datatype State = State(category: Category, data: seq<Item>, form: FormData, addEntryShown: bool)

  /** Users selected, nothing loaded, empty form, form hidden. */
  const Initial: State := State(Users, [], EmptyForm, false)

  /**
   * Choosing a category: the category is set, the form is cleared, and
   * the reload starts by emptying the table (`fetchData` first sets the
   * data to `[]`, before its request).
   */
  function SelectCategory(st: State, c: Category): (r: State)
    ensures r.category == c && r.form == EmptyForm && r.data == []
    ensures r.addEntryShown == st.addEntryShown
    ensures forall input :: Displayed(r.form, input) == Blank
  {
    State(c, [], EmptyForm, st.addEntryShown)
  }

  /** The backend answered a load with `items`. */
  function DataLoaded(st: State, items: seq<Item>): (r: State)
    ensures r.data == items
    ensures r == st.(data := r.data)
  {
    st.(data := items)
  }

  /** The "+" button. */
  function ToggleAddEntry(st: State): (r: State)
    ensures r.addEntryShown != st.addEntryShown
    ensures r == st.(addEntryShown := r.addEntryShown)
  {
    st.(addEntryShown := !st.addEntryShown)
  }

  /** Pressing "+" twice restores the state. */
  lemma ToggleTwiceRestores(st: State)
    ensures ToggleAddEntry(ToggleAddEntry(st)) == st
  {
  }

  /** Typing into one input of the shown form. */
  function Edit(st: State, input: Input, value: string, toNumber: string -> real): (r: State)
    ensures AgreeExcept(r.form, st.form, FieldOf(input))
    ensures r == st.(form := r.form)
  {
    st.(form := OnChange(st.form, input, value, toNumber))
  }

  /**
   * `handleAddEntry` once the POST has answered: on a non-ok answer
   * nothing changes; on success the form is cleared and the reload
   * empties the table.
   */
  function AddEntryAnswered(st: State, ok: bool): (r: State)
    ensures !ok ==> r == st
    ensures ok ==> r.form == EmptyForm && r.data == [] && r.category == st.category && r.addEntryShown == st.addEntryShown
  {
    if !ok then st else st.(form := EmptyForm, data := [])
  }

  /** What the component shows: the form's inputs when it is open, then the table. */
  datatype Screen = Screen(inputs: Option<seq<Input>>, headers: Option<seq<string>>, rows: seq<Row>)

  /** The component's render, or `None` when a cell throws and takes the render down with it. */
  function View(host: Host, st: State): (s: Option<Screen>)
    ensures s.None? <==> exists i :: 0 <= i < |st.data| && ItemThrows(st.data[i])
    ensures s.Some? ==> (s.value.inputs.Some? <==> st.addEntryShown)
    ensures s.Some? && s.value.inputs.Some? ==> s.value.inputs.value == RenderInputs(st.category)
    ensures s.Some? ==> s.value.headers == RenderTableHeaders(st.data)
    ensures s.Some? ==> Some(s.value.rows) == RenderTableRows(host, st.data)
  {
    match RenderTableRows(host, st.data)
    case None => None
    case Some(rows) =>
      Some(Screen(if st.addEntryShown then Some(RenderInputs(st.category)) else None,
                  RenderTableHeaders(st.data), rows))
  }

  /** Right after a category change or a successful add, the screen shows only the placeholder row. */
  lemma ClearedTableShowsPlaceholder(host: Host, st: State, c: Category)
    ensures View(host, SelectCategory(st, c)).Some?
    ensures View(host, SelectCategory(st, c)).value.rows == [Placeholder(1, NoDataMessage)]
    ensures View(host, SelectCategory(st, c)).value.headers.None?
    ensures View(host, AddEntryAnswered(st, true)).Some?
    ensures View(host, AddEntryAnswered(st, true)).value.rows == [Placeholder(1, NoDataMessage)]
  {
  }

  /** No input of any category writes `avatar_url`, so a form built by typing never carries it. */
  lemma {:induction false} AvatarUrlNeverTyped(edits: seq<(Input, string)>, toNumber: string -> real)
    ensures ApplyEdits(EmptyForm, edits, toNumber).avatarUrl.None?
    decreases |edits|
  {
    if |edits| > 0 {
      var last := edits[|edits| - 1];
      AvatarUrlNeverTyped(edits[..|edits| - 1], toNumber);
      var before := ApplyEdits(EmptyForm, edits[..|edits| - 1], toNumber);
      assert Get(OnChange(before, last.0, last.1, toNumber), AvatarUrl) == Get(before, AvatarUrl);
    }
  }

  /** A sequence of typing events, in order. */
  function ApplyEdits(form: FormData, edits: seq<(Input, string)>, toNumber: string -> real): FormData
    decreases |edits|
  {
    if |edits| == 0 then form
    else
      var last := edits[|edits| - 1];
      OnChange(ApplyEdits(form, edits[..|edits| - 1], toNumber), last.0, last.1, toNumber)
  }
}

=== FILE: data_table.dfy ===
/**
 * The generic table of the admin panel: header labels from the first item's
 * keys, one striped row per item with one cell per value, and a single
 * placeholder row when there is no data. The same helpers are copied
 * verbatim into the admin data display, so this module models both copies.
 */
module DataTable {
  import opened Options
  import opened Text

  /** The GeoJSON objects a cell can hold. */
  datatype Geometry = Point(coordinates: seq<real>) | Polygon(rings: seq<seq<seq<real>>>)

  /** One JSON value of a catalogue record. */
  datatype Cell =
    | NullCell
    | UndefinedCell
    | StringCell(s: string)
    | NumberCell(n: real)
    | ArrayCell(items: seq<string>)
    | GeoCell(g: Geometry)

  /** A record as a JavaScript object: its properties in key order. */
  datatype Item = Item(fields: seq<(string, Cell)>)

  /** `Object.keys(item)`. */
  function Keys(item: Item): (keys: seq<string>)
    ensures |keys| == |item.fields|
    ensures forall i :: 0 <= i < |keys| ==> keys[i] == item.fields[i].0
  {
    seq(|item.fields|, i requires 0 <= i < |item.fields| => item.fields[i].0)
  }

  /** `Object.values(item)`. */
  function Values(item: Item): (values: seq<Cell>)
    ensures |values| == |item.fields|
    ensures forall i :: 0 <= i < |values| ==> values[i] == item.fields[i].1
  {
    seq(|item.fields|, i requires 0 <= i < |item.fields| => item.fields[i].1)
  }

  /**
   * The host's number formatting, which the model takes as given:
   * `Number.prototype.toFixed(6)` and `JSON.stringify`.
   */
  datatype Host = Host(toFixed6: real -> string, stringify: Geometry -> string)

  /** What a cell shows: text, a number handed to the view as is, or a thrown `TypeError`. */
  datatype Rendered = RenderedText(text: string) | RenderedNumber(n: real) | RenderError

  const Space: string := " "
  const ArraySeparator: string := ", "

  // ---------------------------------------------------------------- headers

  /** A column title: the key with every underscore shown as a space. */
  function HeaderLabel(key: string): (title: string)
    ensures |title| == |key|
    ensures '_' !in title
    ensures forall i :: 0 <= i < |key| && key[i] != '_' ==> title[i] == key[i]
    ensures forall i :: 0 <= i < |key| && key[i] == '_' ==> title[i] == ' '
  {
    ReplaceAll(key, '_', ' ')
  }

  /** `renderTableHeaders`: nothing for empty data, else one title per key of the first item. */
  function RenderTableHeaders(data: seq<Item>): (headers: Option<seq<string>>)
    ensures headers.None? <==> |data| == 0
    ensures headers.Some? ==> |headers.value| == |data[0].fields|
    ensures headers.Some? ==> forall j :: 0 <= j < |headers.value| ==>
              headers.value[j] == HeaderLabel(data[0].fields[j].0)
  {
    if |data| == 0 then None
    else
      var keys := Keys(data[0]);
      Some(seq(|keys|, j requires 0 <= j < |keys| => HeaderLabel(keys[j])))
  }

  /** Relabelling a label changes nothing more. */
  lemma HeaderLabelIdempotent(key: string)
    ensures HeaderLabel(HeaderLabel(key)) == HeaderLabel(key)
  {
  }

  /** Different keys can share a title: an underscore and a space look the same. */
  lemma HeaderLabelNotInjective(before: string, after: string)
    ensures HeaderLabel(before + "_" + after) == HeaderLabel(before + " " + after)
  {
    var a, b := HeaderLabel(before + "_" + after), HeaderLabel(before + " " + after);
    forall i | 0 <= i < |a| ensures a[i] == b[i] {
      if i < |before| {
        assert (before + "_" + after)[i] == before[i] == (before + " " + after)[i];
      } else if i > |before| {
        assert (before + "_" + after)[i] == after[i - |before| - 1] == (before + " " + after)[i];
      }
    }
  }

  /** The titles depend on the first item only. */
  lemma HeadersFollowFirstItem(data: seq<Item>, other: seq<Item>)
    requires |data| > 0 && |other| > 0 && data[0] == other[0]
    ensures RenderTableHeaders(data) == RenderTableHeaders(other)
  {
  }

  // ------------------------------------------------------------ coordinates

  /**
   * `formatCoordinates` on the digits `toFixed(6)` produced: split at the
   * dots, left-pad the first piece with zeros to two characters, join again.
   */
  function FormatDigits(digits: string): (formatted: string)
    ensures |formatted| >= 2
    ensures |Split(digits, '.')[0]| < 2 ==> formatted[0] == '0'
  {
    var parts := Split(digits, '.');
    Join([PadStart(parts[0], 2, '0')] + parts[1..], ".")
  }

  /** `formatCoordinates(num)`: the host's six-decimal digits with the integer part padded. */
  function FormatCoordinate(host: Host, num: real): (formatted: string)
    ensures |formatted| >= 2
    ensures |Split(host.toFixed6(num), '.')[0]| < 2 ==> formatted[0] == '0'
  {
    FormatDigits(host.toFixed6(num))
  }

  /** With the dot written out: the integer part is padded, the dot and the fraction are kept. */
  lemma IntegerPartPadded(digits: string, intPart: string, fraction: string)
    requires digits == intPart + "." + fraction
    requires '.' !in intPart
    ensures FormatDigits(digits) == PadStart(intPart, 2, '0') + "." + fraction
  {
    assert digits == intPart + ['.'] + fraction;
    SplitAfterPiece(intPart, '.', fraction);
    assert Split(digits, '.')[0] == intPart;
    ReplacePieceBeforeSeparator(intPart, fraction, '.', PadStart(intPart, 2, '0'));
  }

  /** Digits without a dot are padded as a whole. */
  lemma WholeNumberPadded(digits: string)
    requires '.' !in digits
    ensures FormatDigits(digits) == PadStart(digits, 2, '0')
  {
    SplitWithoutSeparator(digits, '.');
    ReplaceWholeString(digits, '.', PadStart(digits, 2, '0'));
  }

  /**
   * Only the part before the first dot is padded; the dot and everything
   * after it are kept. `cut` is where the first dot is, or the length when
   * there is none.
   */
  lemma FormatDigitsPadsIntegerPart(digits: string, cut: nat)
    requires cut <= |digits| && '.' !in digits[..cut]
    requires cut < |digits| ==> digits[cut] == '.'
    ensures FormatDigits(digits) == PadStart(digits[..cut], 2, '0') + digits[cut..]
  {
    if cut < |digits| {
      var intPart, fraction := digits[..cut], digits[cut + 1..];
      assert digits[cut..] == "." + fraction;
      assert digits == intPart + "." + fraction;
      IntegerPartPadded(digits, intPart, fraction);
    } else {
      assert digits[..cut] == digits && digits[cut..] == "";
      WholeNumberPadded(digits);
    }
  }

  /** A one-character integer part gains a zero in front ("5.000000" becomes "05.000000"). */
  lemma OneDigitIsPadded(digit: char, fraction: string)
    requires digit != '.'
    ensures FormatDigits([digit] + "." + fraction) == ['0', digit] + "." + fraction
  {
    IntegerPartPadded([digit] + "." + fraction, [digit], fraction);
    assert PadStart([digit], 2, '0') == ['0', digit];
  }

  /**
   * An integer part of two characters or more is kept as it is; a sign
   * counts, so "-5.000000" is not padded to "-05.000000".
   */
  lemma LongIntegerPartKept(intPart: string, fraction: string)
    requires '.' !in intPart && |intPart| >= 2
    ensures FormatDigits(intPart + "." + fraction) == intPart + "." + fraction
  {
    IntegerPartPadded(intPart + "." + fraction, intPart, fraction);
  }

  // ------------------------------------------------------------------ cells

  /** A value whose rendering throws: a point with fewer than two coordinates reads `undefined.toFixed`. */
  predicate Throws(v: Cell)
  {
    v.GeoCell? && v.g.Point? && |v.g.coordinates| < 2
  }

  /** `renderCellValue`: the case split on the kind of value. */
  function RenderCell(host: Host, v: Cell): (r: Rendered)
    ensures r.RenderError? <==> Throws(v)
    ensures (v.NullCell? || v.UndefinedCell?) ==> r == RenderedText("")
    ensures v.StringCell? ==> r == RenderedText(v.s)
    ensures v.NumberCell? ==> r == RenderedNumber(v.n)
    ensures v.ArrayCell? ==> r == RenderedText(Join(v.items, ArraySeparator))
    ensures v.GeoCell? && v.g.Point? && |v.g.coordinates| >= 2 ==>
              r == RenderedText(FormatCoordinate(host, v.g.coordinates[0]) + Space + FormatCoordinate(host, v.g.coordinates[1]))
    ensures v.GeoCell? && v.g.Polygon? ==> r == RenderedText(host.stringify(v.g))
  {
    match v
    case NullCell => RenderedText("")
    case UndefinedCell => RenderedText("")
    case StringCell(s) => RenderedText(s)
    case NumberCell(n) => RenderedNumber(n)
    case ArrayCell(items) => RenderedText(Join(items, ArraySeparator))
    case GeoCell(g) =>
      match g
      case Point(coordinates) =>
        if |coordinates| < 2 then RenderError
        else
          var x, y := FormatCoordinate(host, coordinates[0]), FormatCoordinate(host, coordinates[1]);
          JoinCons(x, [y], Space);
          RenderedText(Join([x, y], Space))
      case Polygon(_) => RenderedText(host.stringify(g))
  }

  /**
   * A point shows exactly two formatted coordinates with one space between
   * them: splitting the text at spaces gives them back.
   */
  lemma PointRendersTwoCoordinates(host: Host, x: real, y: real, rest: seq<real>)
    requires ' ' !in host.toFixed6(x) && ' ' !in host.toFixed6(y)
    ensures var r := RenderCell(host, GeoCell(Point([x, y] + rest)));
            r.RenderedText? && Split(r.text, ' ') == [FormatCoordinate(host, x), FormatCoordinate(host, y)]
  {
    var fx, fy := FormatCoordinate(host, x), FormatCoordinate(host, y);
    var coordinates := [x, y] + rest;
    assert coordinates[0] == x && coordinates[1] == y;
    var r := RenderCell(host, GeoCell(Point(coordinates)));
    assert r == RenderedText(fx + Space + fy);
    NoSpaceAfterFormatting(host.toFixed6(x));
    NoSpaceAfterFormatting(host.toFixed6(y));
    SplitPair(fx, fy, ' ');
  }

  /** Formatting adds zeros only, so a space-free digit string stays space-free. */
  lemma NoSpaceAfterFormatting(digits: string)
    requires ' ' !in digits
    ensures ' ' !in FormatDigits(digits)
  {
    var cut := FirstDot(digits);
    NoSpaceInPadded(digits[..cut], digits[cut..]);
    FormatDigitsPadsIntegerPart(digits, cut);
  }

  /** Where the first dot of `digits` is, or its length when it has none. */
  lemma FirstDot(digits: string) returns (cut: nat)
    ensures cut <= |digits| && '.' !in digits[..cut]
    ensures cut < |digits| ==> digits[cut] == '.'
  {
    cut := IndexOf(digits, '.');
    PrefixBeforeIndexOf(digits, '.');
  }

  /** Zero padding brings no space with it. */
  lemma NoSpaceInPadded(intPart: string, rest: string)
    requires ' ' !in intPart && ' ' !in rest
    ensures ' ' !in PadStart(intPart, 2, '0') + rest
  {
    var padded := PadStart(intPart, 2, '0');
    forall k | 0 <= k < |padded| ensures padded[k] != ' ' {
      if k >= |padded| - |intPart| {
        assert padded[k] == padded[|padded| - |intPart|..][k - (|padded| - |intPart|)];
      }
    }
  }

  /** An empty array and a missing value look the same; a one-element array shows its element. */
  lemma ArrayCellExamples(host: Host, s: string)
    ensures RenderCell(host, ArrayCell([])) == RenderCell(host, NullCell) == RenderedText("")
    ensures RenderCell(host, ArrayCell([s])) == RenderCell(host, StringCell(s))
  {
  }

  /** Two or more strings are shown with ", " after each but the last. */
  lemma ArrayCellSeparates(host: Host, first: string, rest: seq<string>)
    requires |rest| >= 1
    ensures RenderCell(host, ArrayCell([first] + rest)) == RenderedText(first + ", " + Join(rest, ", "))
  {
    JoinCons(first, rest, ArraySeparator);
  }

  // ------------------------------------------------------------------- rows

  datatype Row =
    | Placeholder(colSpan: nat, message: string)
    | DataRow(key: nat, stripe: string, cells: seq<Rendered>)

  const NoDataMessage: string := "Нет данных"
  const EvenStripe: string := "bg-nord4"
  const OddStripe: string := "bg-nord5"

  /** The placeholder's `colSpan`: the key count of `data[0] || {}`, or 1 when that is 0. */
  function PlaceholderColSpan(data: seq<Item>): (n: nat)
    ensures |data| == 0 ==> n == 1
    ensures n >= 1
  {
    var first := if |data| > 0 then data[0] else Item([]);
    var keys := |Keys(first)|;
    if keys == 0 then 1 else keys
  }

  /** The row colour: `bg-nord4` for even indices, `bg-nord5` for odd ones. */
  function Stripe(index: nat): (stripe: string)
    ensures stripe == EvenStripe <==> index % 2 == 0
    ensures stripe == EvenStripe || stripe == OddStripe
  {
    if index % 2 == 0 then EvenStripe else OddStripe
  }

  /** Some value of the record throws when it is rendered. */
  predicate ItemThrows(item: Item)
  {
    exists j :: 0 <= j < |item.fields| && Throws(item.fields[j].1)
  }

  /**
   * `values.map(renderCellValue)`: every value rendered in order, or `None`
   * when one of them throws, since the exception leaves the whole `map`.
   */
  function RenderValues(host: Host, values: seq<Cell>): (cells: Option<seq<Rendered>>)
    ensures cells.None? <==> exists j :: 0 <= j < |values| && Throws(values[j])
    ensures cells.Some? ==> |cells.value| == |values|
    ensures cells.Some? ==> forall j :: 0 <= j < |values| ==> cells.value[j] == RenderCell(host, values[j])
    decreases |values|
  {
    if |values| == 0 then Some([])
    else
      var first := RenderCell(host, values[0]);
      if first.RenderError? then None
      else
        match RenderValues(host, values[1..])
        case None =>
          assert exists j :: 0 <= j < |values| - 1 && Throws(values[1..][j]);
          None
        case Some(rest) => Some([first] + rest)
  }

  /** The cells of one row: each value of the item rendered, in key order, or `None` when one throws. */
  function RenderCells(host: Host, item: Item): (cells: Option<seq<Rendered>>)
    ensures cells.None? <==> ItemThrows(item)
    ensures cells.Some? ==> |cells.value| == |item.fields|
    ensures cells.Some? ==> forall j :: 0 <= j < |item.fields| ==> cells.value[j] == RenderCell(host, item.fields[j].1)
  {
    RenderValues(host, Values(item))
  }

  /**
   * `renderTableRows`: one placeholder row for empty data, else one striped
   * row per item; `None` when some cell throws, because the exception leaves
   * the `map` over the items and with it the whole render.
   */
  function RenderTableRows(host: Host, data: seq<Item>): (rows: Option<seq<Row>>)
    ensures |data| == 0 ==> rows == Some([Placeholder(1, NoDataMessage)])
    ensures rows.None? <==> exists i :: 0 <= i < |data| && ItemThrows(data[i])
    ensures rows.Some? && |data| > 0 ==> |rows.value| == |data|
    ensures rows.Some? && |data| > 0 ==> forall i :: 0 <= i < |data| ==>
              rows.value[i] == DataRow(i, Stripe(i), RenderCells(host, data[i]).value)
  {
    if |data| == 0 then Some([Placeholder(PlaceholderColSpan(data), NoDataMessage)])
    else RenderRowsFrom(host, data, 0)
  }

  /** The `data.map` from `index` on: the striped rows of `data[index..]`, or `None` once one throws. */
  function RenderRowsFrom(host: Host, data: seq<Item>, index: nat): (rows: Option<seq<Row>>)
    requires index <= |data|
    ensures rows.None? <==> exists i :: index <= i < |data| && ItemThrows(data[i])
    ensures rows.Some? ==> |rows.value| == |data| - index
    ensures rows.Some? ==> forall k :: 0 <= k < |rows.value| ==>
              rows.value[k] == DataRow(index + k, Stripe(index + k), RenderCells(host, data[index + k]).value)
    decreases |data| - index
  {
    if index == |data| then Some([])
    else
      match RenderCells(host, data[index])
      case None => None
      case Some(cells) =>
        match RenderRowsFrom(host, data, index + 1)
        case None => None
        case Some(rest) =>
          var rows := [DataRow(index, Stripe(index), cells)] + rest;
          assert forall k :: 1 <= k < |rows| ==> rows[k] == rest[k - 1];
          Some(rows)
  }

  /** When the table renders, some row is the placeholder exactly when there are no items, and there is always a row. */
  lemma PlaceholderOnlyWhenEmpty(host: Host, data: seq<Item>)
    ensures var rows := RenderTableRows(host, data);
            rows.Some? ==>
              |rows.value| >= 1 && ((exists i :: 0 <= i < |rows.value| && rows.value[i].Placeholder?) <==> |data| == 0)
  {
    var rows := RenderTableRows(host, data);
    if |data| == 0 {
      assert rows.value[0].Placeholder?;
    }
  }

  /** Rows alternate between the two stripes, starting with the even one. */
  lemma StripesAlternate(host: Host, data: seq<Item>)
    requires |data| > 0
    ensures var rows := RenderTableRows(host, data);
            rows.Some? ==> rows.value[0].stripe == EvenStripe
    ensures var rows := RenderTableRows(host, data);
            rows.Some? ==> forall i :: 0 <= i < |data| - 1 ==> rows.value[i].stripe != rows.value[i + 1].stripe
    ensures var rows := RenderTableRows(host, data);
            rows.Some? ==> forall i :: 0 <= i < |data| ==>
              rows.value[i].stripe == (if i % 2 == 0 then EvenStripe else OddStripe)
  {
    var rows := RenderTableRows(host, data);
    if rows.Some? {
      forall i | 0 <= i < |data| - 1 ensures rows.value[i].stripe != rows.value[i + 1].stripe {
        assert rows.value[i].stripe == Stripe(i) && rows.value[i + 1].stripe == Stripe(i + 1);
        NextIndexOtherParity(i);
      }
    }
  }

  lemma NextIndexOtherParity(i: nat)
    ensures (i % 2 == 0) != ((i + 1) % 2 == 0)
  {
  }

  /** Headers come from the first item only, so a later item with more properties gets more cells than there are titles. */
  lemma RowsMayOutgrowHeaders(host: Host)
    ensures var data := [Item([("id", StringCell("1"))]), Item([("id", StringCell("2")), ("name", StringCell("Ладога"))])];
            var rows := RenderTableRows(host, data);
            rows.Some? && |RenderTableHeaders(data).value| == 1 && |rows.value[1].cells| == 2
  {
  }

  /**
   * One point with a single coordinate fails the whole table, however many
   * well-formed records come before it: no row of them is drawn.
   */
  lemma ShortPointFailsTable(host: Host, before: seq<Item>)
    ensures RenderTableRows(host, before + [Item([("coordinates", GeoCell(Point([1.0])))])]).None?
  {
    var bad := Item([("coordinates", GeoCell(Point([1.0])))]);
    var data := before + [bad];
    assert Throws(bad.fields[0].1);
    assert data[|before|] == bad;
  }
}

=== FILE: map_page.dfy ===
/**
 * The map page of the React client: a list of markers loaded from the
 * backend, a search box with a rating slider, and a delete button in each
 * marker's popup. Setting React state is modelled as returning the next
 * `State`.
 */
module MapPage {
  import opened SeqFilter
  import opened Search

  datatype MarkerData = MarkerData(
    id: string,
    name: string,
    lat: real,
    lng: real,
    address: string,
    rating: real)

  /** The page's state hooks. `filteredMarkers` is what the map and the result list show. */
  datatype State = State(
    markers: seq<MarkerData>,
    search: string,
    minRating: real,
    maxRating: real,
    filteredMarkers: seq<MarkerData>)

  /** The rating slider's bounds, which are also its initial positions. */
  const SliderMin: real := 1.0
  const SliderMax: real := 5.0

  /** Before anything is loaded: no markers, empty query, the full slider range. */
  const Initial: State := State([], "", SliderMin, SliderMax, [])

  predicate MarkerMatches(m: MarkerData, search: string, lo: real, hi: real)
  {
    NameAndRatingMatch(m.name, m.rating, search, lo, hi)
  }

  /** The callback handed to `filter` by `handleSearch`. */
  function Matcher(search: string, lo: real, hi: real): MarkerData -> bool
  {
    (m: MarkerData) => MarkerMatches(m, search, lo, hi)
  }

  /** The filter behind "apply filters": markers whose name and rating match, in list order. */
  function SearchMarkers(markers: seq<MarkerData>, search: string, lo: real, hi: real): (r: seq<MarkerData>)
    ensures IsSubsequence(r, markers)
    ensures forall m :: m in r ==> MarkerMatches(m, search, lo, hi)
    ensures forall m :: m in markers && MarkerMatches(m, search, lo, hi) ==> m in r
    ensures forall m :: multiset(r)[m] == if MarkerMatches(m, search, lo, hi) then multiset(markers)[m] else 0
  {
    var keep := Matcher(search, lo, hi);
    FilterIsSubsequence(markers, keep);
    forall m ensures multiset(Filter(markers, keep))[m] == if MarkerMatches(m, search, lo, hi) then multiset(markers)[m] else 0 {
      FilterMultiplicity(markers, keep, m);
    }
    Filter(markers, keep)
  }

  /** The markers left after deleting `id`: every marker with another id, in list order. */
  function DeleteMarker(markers: seq<MarkerData>, id: string): (r: seq<MarkerData>)
    ensures IsSubsequence(r, markers)
    ensures forall m :: m in r ==> m.id != id
    ensures forall m :: m in markers && m.id != id ==> m in r
    ensures forall m :: multiset(r)[m] == if m.id != id then multiset(markers)[m] else 0
    ensures (forall i :: 0 <= i < |markers| ==> markers[i].id != id) ==> r == markers
  {
    var keep := (m: MarkerData) => m.id != id;
    FilterIsSubsequence(markers, keep);
    forall m ensures multiset(Filter(markers, keep))[m] == if m.id != id then multiset(markers)[m] else 0 {
      FilterMultiplicity(markers, keep, m);
    }
    assert (forall i :: 0 <= i < |markers| ==> markers[i].id != id) ==> Filter(markers, keep) == markers by {
      if forall i :: 0 <= i < |markers| ==> markers[i].id != id {
        FilterKeepsAll(markers, keep);
      }
    }
    Filter(markers, keep)
  }

  /** The fetch of `/points` resolved with `data`: only the marker list is replaced. */
  function MarkersLoaded(st: State, data: seq<MarkerData>): (r: State)
    ensures r.markers == data
    ensures r == st.(markers := r.markers)
  {
    st.(markers := data)
  }

  /** Typing in the search box. */
  function SetSearch(st: State, text: string): (r: State)
    ensures r.search == text
    ensures r == st.(search := r.search)
  {
    st.(search := text)
  }

  /** Moving the slider: both thumbs are read from the new value together. */
  function SetRatingRange(st: State, lo: real, hi: real): (r: State)
    ensures r.minRating == lo && r.maxRating == hi
    ensures r == st.(minRating := r.minRating, maxRating := r.maxRating)
  {
    st.(minRating := lo, maxRating := hi)
  }

  /** `handleSearch`: replaces the shown markers by the matching ones and changes nothing else. */
  function HandleSearch(st: State): (r: State)
    ensures r == st.(filteredMarkers := r.filteredMarkers)
    ensures IsSubsequence(r.filteredMarkers, st.markers)
    ensures forall m :: m in r.filteredMarkers ==> MarkerMatches(m, st.search, st.minRating, st.maxRating)
    ensures forall m :: m in st.markers && MarkerMatches(m, st.search, st.minRating, st.maxRating) ==> m in r.filteredMarkers
    ensures forall m :: multiset(r.filteredMarkers)[m] ==
              if MarkerMatches(m, st.search, st.minRating, st.maxRating) then multiset(st.markers)[m] else 0
  {
    st.(filteredMarkers := SearchMarkers(st.markers, st.search, st.minRating, st.maxRating))
  }

  /**
   * `handleDeleteMarker`: removes the id from the marker list and shows the
   * whole updated list, whatever filter was applied before.
   */
  function HandleDeleteMarker(st: State, id: string): (r: State)
    ensures r.search == st.search && r.minRating == st.minRating && r.maxRating == st.maxRating
    ensures IsSubsequence(r.markers, st.markers)
    ensures forall m :: m in r.markers <==> m in st.markers && m.id != id
    ensures forall m :: multiset(r.markers)[m] == if m.id != id then multiset(st.markers)[m] else 0
    ensures (forall i :: 0 <= i < |st.markers| ==> st.markers[i].id != id) ==> r.markers == st.markers
    ensures r.filteredMarkers == r.markers
  {
    var updated := DeleteMarker(st.markers, id);
    st.(markers := updated, filteredMarkers := updated)
  }

  /** Filtering the search result again with the same query and bounds changes nothing. */
  lemma SearchIdempotent(markers: seq<MarkerData>, search: string, lo: real, hi: real)
    ensures SearchMarkers(SearchMarkers(markers, search, lo, hi), search, lo, hi)
         == SearchMarkers(markers, search, lo, hi)
  {
    FilterIdempotent(markers, Matcher(search, lo, hi));
  }

  /** Pressing "apply filters" twice shows the same markers as pressing it once. */
  lemma HandleSearchIdempotent(st: State)
    ensures HandleSearch(HandleSearch(st)) == HandleSearch(st)
  {
  }

  /** With the lower bound above the upper bound nothing is found. */
  lemma InvertedRangeFindsNothing(markers: seq<MarkerData>, search: string, lo: real, hi: real)
    requires lo > hi
    ensures SearchMarkers(markers, search, lo, hi) == []
  {
    FilterDropsAll(markers, Matcher(search, lo, hi));
  }

  /** With an empty query a marker is found exactly when its rating is within the bounds. */
  lemma EmptySearchFiltersByRating(markers: seq<MarkerData>, lo: real, hi: real)
    ensures forall m :: m in markers ==>
      (m in SearchMarkers(markers, "", lo, hi) <==> lo <= m.rating <= hi)
  {
    forall m | m in markers {
      EmptyQueryMatchesByRating(m.name, m.rating, lo, hi);
    }
  }

  /** With the initial empty query and full slider range every marker rated 1 to 5 is found. */
  lemma DefaultsFindAllRated(markers: seq<MarkerData>)
    requires forall i :: 0 <= i < |markers| ==> SliderMin <= markers[i].rating <= SliderMax
    ensures SearchMarkers(markers, Initial.search, Initial.minRating, Initial.maxRating) == markers
  {
    var keep := Matcher("", SliderMin, SliderMax);
    forall i | 0 <= i < |markers| ensures keep(markers[i]) {
      EmptyQueryMatchesByRating(markers[i].name, markers[i].rating, SliderMin, SliderMax);
    }
    FilterKeepsAll(markers, keep);
  }

  /**
   * Deleting drops the active filter: a marker the rating filter hid is
   * shown again after another (even absent) id is deleted.
   */
  lemma DeleteShowsFilteredOutMarkers(low: MarkerData, high: MarkerData, lo: real, hi: real, id: string)
    requires low.rating < lo <= high.rating <= hi
    requires low.id != id && high.id != id
    ensures var st := HandleSearch(SetRatingRange(MarkersLoaded(Initial, [low, high]), lo, hi));
            st.filteredMarkers == [high] && HandleDeleteMarker(st, id).filteredMarkers == [low, high]
  {
    RatingRangeHidesLow(low, high, lo, hi);
    assert DeleteMarker([low, high], id) == [low, high];
  }

  /** With an empty query, a range that starts above `low`'s rating and holds `high`'s keeps only `high`. */
  lemma RatingRangeHidesLow(low: MarkerData, high: MarkerData, lo: real, hi: real)
    requires low.rating < lo <= high.rating <= hi
    ensures SearchMarkers([low, high], "", lo, hi) == [high]
  {
    var keep := Matcher("", lo, hi);
    EmptyQueryMatchesByRating(low.name, low.rating, lo, hi);
    EmptyQueryMatchesByRating(high.name, high.rating, lo, hi);
    assert !keep(low) && keep(high);
    assert [low, high][1..] == [high];
    assert Filter([high], keep) == [high];
  }

  /**
   * Loading the markers does not refresh the view: until "apply filters" is
   * pressed the map shows none of them.
   */
  lemma LoadedMarkersHiddenUntilSearch(data: seq<MarkerData>)
    ensures MarkersLoaded(Initial, data).filteredMarkers == []
    ensures forall m :: m in data && MarkerMatches(m, "", SliderMin, SliderMax) ==>
              m in HandleSearch(MarkersLoaded(Initial, data)).filteredMarkers
  {
  }
}

=== FILE: new_password.dfy ===
/**
 * The "new password" page: two password fields and a save button that
 * goes on to the settings page only when the two entries are identical.
 */
module NewPassword {

  datatype State = State(password: string, confirmPassword: string)

  const Initial: State := State("", "")

  /** What pressing "save" does besides keeping the state. */
  datatype Effect = Alert(message: string) | Navigate(path: string)

  datatype SaveResult = SaveResult(state: State, effect: Effect)

  const MismatchMessage: string := "Пароли не совпадают!"
  const SettingsPath: string := "/settings"

  function SetPassword(st: State, value: string): (r: State)
    ensures r.password == value && r.confirmPassword == st.confirmPassword
  {
    st.(password := value)
  }

  function SetConfirmPassword(st: State, value: string): (r: State)
    ensures r.confirmPassword == value && r.password == st.password
  {
    st.(confirmPassword := value)
  }

  /** `handleSave`: an alert when the entries differ, otherwise navigation to the settings page. */
  function HandleSave(st: State): (r: SaveResult)
    ensures r.state == st
    ensures r.effect.Navigate? <==> st.password == st.confirmPassword
    ensures r.effect.Navigate? ==> r.effect.path == SettingsPath
    ensures r.effect.Alert? ==> r.effect.message == MismatchMessage
  {
    if st.password != st.confirmPassword then SaveResult(st, Alert(MismatchMessage))
    else SaveResult(st, Navigate(SettingsPath))
  }

  /** Typing the same text into both fields always lets the user through. */
  lemma SameEntriesNavigate(value: string)
    ensures HandleSave(SetConfirmPassword(SetPassword(Initial, value), value)).effect == Navigate(SettingsPath)
  {
  }

  /**
   * The check is plain equality: two empty fields pass, and entries that
   * differ only by surrounding spaces or letter case are refused.
   */
  lemma ExactComparison()
    ensures HandleSave(Initial).effect == Navigate(SettingsPath)
    ensures HandleSave(State("secret", "secret ")).effect == Alert(MismatchMessage)
    ensures HandleSave(State("Secret", "secret")).effect == Alert(MismatchMessage)
  {
    assert "secret" != "secret " by { assert |"secret"| != |"secret "|; }
    assert "Secret"[0] != "secret"[0];
  }

  /** Saving again after an alert alerts again: saving never edits the entries. */
  lemma RepeatedSaveSameEffect(st: State)
    ensures HandleSave(HandleSave(st).state) == HandleSave(st)
  {
  }
}

=== FILE: options.dfy ===
/** Optional values: the model's stand-in for a JavaScript property that may be `undefined`. */
module Options {

  datatype Option<+T> = None | Some(value: T) {

    /** The wrapped value, or `default` when absent. */
    function GetOr(default: T): T {
      match this
      case Some(v) => v
      case None => default
    }
  }
}

=== FILE: search.dfy ===
/**
 * The search condition shared by the map page and the attribute search page:
 * the item's name contains the query, ignoring case, and its rating lies in
 * the inclusive range chosen on the slider.
 */
module Search {
  import opened Text

  /** `name.toLowerCase().includes(query.toLowerCase())` and `lo <= rating <= hi`. */
  predicate NameAndRatingMatch(name: string, rating: real, query: string, lo: real, hi: real): (matches: bool)
    ensures matches ==> lo <= rating <= hi
    ensures matches ==> |query| <= |name|
    ensures lo > hi ==> !matches
  {
    Contains(Lower(name), Lower(query)) && rating >= lo && rating <= hi
  }

  /** With an empty query only the rating bounds decide. */
  lemma EmptyQueryMatchesByRating(name: string, rating: real, lo: real, hi: real)
    ensures NameAndRatingMatch(name, rating, "", lo, hi) <==> lo <= rating <= hi
  {
    assert Lower("") == "";
    ContainsEmpty(Lower(name));
  }

  /** A name that contains the query verbatim matches whatever the letter case, once the rating fits. */
  lemma VerbatimNameMatches(name: string, rating: real, query: string, lo: real, hi: real)
    requires Contains(name, query)
    requires lo <= rating <= hi
    ensures NameAndRatingMatch(name, rating, query, lo, hi)
  {
    LowerPreservesContains(name, query);
  }
}

=== FILE: seqfilter.dfy ===
/**
 * `Array.prototype.filter` on immutable sequences, with the facts the pages
 * rely on: the result is an order-preserving subsequence, it keeps exactly
 * the elements the predicate accepts (with their multiplicities), and
 * filtering twice with the same predicate changes nothing.
 */
module SeqFilter {

  /** `a` can be obtained from `b` by deleting elements, without reordering. */
  ghost predicate IsSubsequence<T>(a: seq<T>, b: seq<T>)
    decreases |b|
  {
    if |a| == 0 then true
    else if |b| == 0 then false
    else (a[0] == b[0] && IsSubsequence(a[1..], b[1..])) || IsSubsequence(a, b[1..])
  }

  /** The elements of `s` accepted by `keep`, in their original order. */
  function Filter<T>(s: seq<T>, keep: T -> bool): (r: seq<T>)
    ensures |r| <= |s|
    ensures forall x :: x in r ==> x in s && keep(x)
    ensures forall x :: x in s && keep(x) ==> x in r
  {
    if |s| == 0 then []
    else if keep(s[0]) then [s[0]] + Filter(s[1..], keep)
    else Filter(s[1..], keep)
  }

  lemma {:induction false} FilterIsSubsequence<T>(s: seq<T>, keep: T -> bool)
    ensures IsSubsequence(Filter(s, keep), s)
    decreases |s|
  {
    if |s| > 0 {
      FilterIsSubsequence(s[1..], keep);
      var rest := Filter(s[1..], keep);
      if keep(s[0]) {
        assert Filter(s, keep) == [s[0]] + rest;
        assert ([s[0]] + rest)[1..] == rest;
      } else {
        SkipHeadKeepsSubsequence(rest, s);
      }
    }
  }

  /** A subsequence of the tail is a subsequence of the whole. */
  lemma {:induction false} SkipHeadKeepsSubsequence<T>(a: seq<T>, b: seq<T>)
    requires |b| > 0
    requires IsSubsequence(a, b[1..])
    ensures IsSubsequence(a, b)
  {
  }

  /** Every element is kept exactly as often as it occurs, or dropped entirely. */
  lemma {:induction false} FilterMultiplicity<T>(s: seq<T>, keep: T -> bool, x: T)
    ensures multiset(Filter(s, keep))[x] == if keep(x) then multiset(s)[x] else 0
    decreases |s|
  {
    if |s| > 0 {
      FilterMultiplicity(s[1..], keep, x);
      assert s == [s[0]] + s[1..];
      assert multiset(s) == multiset{s[0]} + multiset(s[1..]);
      if keep(s[0]) {
        assert multiset(Filter(s, keep)) == multiset{s[0]} + multiset(Filter(s[1..], keep));
      }
    }
  }

  /** Filtering a sequence all of whose elements are accepted returns it unchanged. */
  lemma {:induction false} FilterKeepsAll<T>(s: seq<T>, keep: T -> bool)
    requires forall i :: 0 <= i < |s| ==> keep(s[i])
    ensures Filter(s, keep) == s
    decreases |s|
  {
    if |s| > 0 {
      FilterKeepsAll(s[1..], keep);
      assert [s[0]] + s[1..] == s;
    }
  }

  /** Filtering a sequence none of whose elements is accepted returns the empty sequence. */
  lemma {:induction false} FilterDropsAll<T>(s: seq<T>, keep: T -> bool)
    requires forall i :: 0 <= i < |s| ==> !keep(s[i])
    ensures Filter(s, keep) == []
    decreases |s|
  {
    if |s| > 0 {
      FilterDropsAll(s[1..], keep);
    }
  }

  lemma FilterIdempotent<T>(s: seq<T>, keep: T -> bool)
    ensures Filter(Filter(s, keep), keep) == Filter(s, keep)
  {
    var r := Filter(s, keep);
    assert forall i :: 0 <= i < |r| ==> keep(r[i]) by {
      forall i | 0 <= i < |r| ensures keep(r[i]) {
        assert r[i] in r;
      }
    }
    FilterKeepsAll(r, keep);
  }

  /** Filtering distributes over concatenation. */
  lemma {:induction false} FilterAppend<T>(a: seq<T>, b: seq<T>, keep: T -> bool)
    ensures Filter(a + b, keep) == Filter(a, keep) + Filter(b, keep)
    decreases |a|
  {
    if |a| > 0 {
      FilterAppend(a[1..], b, keep);
      assert (a + b)[0] == a[0];
      assert (a + b)[1..] == a[1..] + b;
    } else {
      assert a + b == b;
    }
  }
}

=== FILE: text.dfy ===
/**
 * The JavaScript string operations the pages use, on `string` = `seq<char>`:
 * `toLowerCase`, `includes`, `replace(/_/g, " ")`, `split`, `join` and
 * `padStart`.
 */
module Text {

  /**
   * Lower-case mapping of one character. Covers ASCII letters and the basic
   * Cyrillic alphabet (А..Я and Ё), the scripts the catalogue's names use;
   * every other character is left alone.
   */
  function LowerChar(c: char): (d: char)
    ensures 'A' <= c <= 'Z' ==> d as int == c as int + 32
    ensures 'А' <= c <= 'Я' ==> d as int == c as int + 32
    ensures c == 'Ё' ==> d == 'ё'
    ensures !IsUpper(c) ==> d == c
    ensures !IsUpper(d)
  {
    if 'A' <= c <= 'Z' then (c as int + 32) as char
    else if 'А' <= c <= 'Я' then (c as int + 32) as char
    else if c == 'Ё' then 'ё'
    else c
  }

  /** A capital letter of the alphabets `LowerChar` covers. */
  predicate IsUpper(c: char)
  {
    'A' <= c <= 'Z' || 'А' <= c <= 'Я' || c == 'Ё'
  }

  /** `s.toLowerCase()`, character by character. */
  function Lower(s: string): (r: string)
    ensures |r| == |s|
    ensures forall i :: 0 <= i < |r| ==> !IsUpper(r[i])
    ensures forall i :: 0 <= i < |s| && !IsUpper(s[i]) ==> r[i] == s[i]
    ensures forall i :: 0 <= i < |s| && IsUpper(s[i]) ==> r[i] == LowerChar(s[i])
  {
    seq(|s|, i requires 0 <= i < |s| => LowerChar(s[i]))
  }

  /** `sub` occurs in `s` starting at index `i`. */
  ghost predicate OccursAt(s: string, sub: string, i: int)
  {
    0 <= i && i + |sub| <= |s| && s[i..i + |sub|] == sub
  }

  /** `s.includes(sub)`: scan every start position from the left. */
  predicate Contains(s: string, sub: string): (found: bool)
    ensures found ==> |sub| <= |s|
    ensures |sub| == 0 ==> found
    decreases |s|
  {
    (|sub| <= |s| && s[..|sub|] == sub) || (|s| > 0 && Contains(s[1..], sub))
  }

  /** `Contains` holds exactly when some position of `s` starts an occurrence of `sub`. */
  lemma ContainsIff(s: string, sub: string)
    ensures Contains(s, sub) <==> exists i :: OccursAt(s, sub, i)
  {
    if Contains(s, sub) {
      var i := ContainsFound(s, sub);
    }
    if exists i :: OccursAt(s, sub, i) {
      var i :| OccursAt(s, sub, i);
      OccurrenceContained(s, sub, i);
    }
  }

  /** A successful scan points at an occurrence. */
  lemma {:induction false} ContainsFound(s: string, sub: string) returns (i: int)
    requires Contains(s, sub)
    ensures OccursAt(s, sub, i)
    decreases |s|
  {
    if |sub| <= |s| && s[..|sub|] == sub {
      i := 0;
    } else {
      var j := ContainsFound(s[1..], sub);
      assert s[1..][j..j + |sub|] == s[j + 1..j + 1 + |sub|];
      i := j + 1;
    }
  }

  /** The scan finds every occurrence. */
  lemma {:induction false} OccurrenceContained(s: string, sub: string, i: int)
    requires OccursAt(s, sub, i)
    ensures Contains(s, sub)
    decreases i
  {
    if i > 0 {
      assert s[1..][i - 1..i - 1 + |sub|] == s[i..i + |sub|];
      OccurrenceContained(s[1..], sub, i - 1);
    } else {
      assert s[..|sub|] == sub;
    }
  }

  /** Every string includes the empty string. */
  lemma ContainsEmpty(s: string)
    ensures Contains(s, "")
  {
    assert s[..0] == "";
  }

  /** A string contains each of its suffixes. */
  lemma ContainsSuffix(prefix: string, suffix: string)
    ensures Contains(prefix + suffix, suffix)
  {
    assert OccursAt(prefix + suffix, suffix, |prefix|) by {
      assert (prefix + suffix)[|prefix|..|prefix| + |suffix|] == suffix;
    }
    ContainsIff(prefix + suffix, suffix);
  }

  /** A string cannot contain a piece that has a character the string lacks. */
  lemma MissingCharNotContained(s: string, sub: string, c: char)
    requires c in sub && c !in s
    ensures !Contains(s, sub)
  {
    var k :| 0 <= k < |sub| && sub[k] == c;
    forall i | 0 <= i && i + |sub| <= |s| ensures !OccursAt(s, sub, i) {
      assert s[i..i + |sub|][k] == s[i + k];
    }
    ContainsIff(s, sub);
  }

  /** Lower-casing works character by character, so it distributes over concatenation. */
  lemma LowerAppend(a: string, b: string)
    ensures Lower(a + b) == Lower(a) + Lower(b)
  {
  }

  /** Lower-casing twice is lower-casing once. */
  lemma LowerIdempotent(s: string)
    ensures Lower(Lower(s)) == Lower(s)
  {
  }

  /** A character outside both alphabets appears in the lower-cased string only where it appeared before. */
  lemma LowerKeepsCaselessOut(s: string, c: char)
    requires c !in s
    requires !('a' <= c <= 'z') && !('а' <= c <= 'я') && c != 'ё'
    ensures c !in Lower(s)
  {
    forall i | 0 <= i < |s| ensures Lower(s)[i] != c {
      assert s[i] != c;
    }
  }

  /** A case-sensitive occurrence is still an occurrence after lower-casing both sides. */
  lemma LowerPreservesContains(s: string, sub: string)
    requires Contains(s, sub)
    ensures Contains(Lower(s), Lower(sub))
  {
    ContainsIff(s, sub);
    var i :| OccursAt(s, sub, i);
    var ls, lsub := Lower(s), Lower(sub);
    assert ls[i..i + |lsub|] == lsub by {
      forall k | 0 <= k < |lsub| ensures ls[i..i + |lsub|][k] == lsub[k] {
        assert s[i..i + |sub|][k] == sub[k];
      }
    }
    assert OccursAt(ls, lsub, i);
    ContainsIff(ls, lsub);
  }

  /** Every occurrence of `from` in `s` replaced by `to` (a global one-character `replace`). */
  function ReplaceAll(s: string, from: char, to: char): (r: string)
    ensures |r| == |s|
    ensures forall i :: 0 <= i < |s| && s[i] == from ==> r[i] == to
    ensures forall i :: 0 <= i < |s| && s[i] != from ==> r[i] == s[i]
  {
    if |s| == 0 then ""
    else [if s[0] == from then to else s[0]] + ReplaceAll(s[1..], from, to)
  }

  /** `n` copies of `c`. */
  function Repeat(c: char, n: nat): (r: string)
    ensures |r| == n
    ensures forall i :: 0 <= i < n ==> r[i] == c
  {
    if n == 0 then "" else [c] + Repeat(c, n - 1)
  }

  /**
   * `s.padStart(n, fill)` with a one-character fill: a string shorter than
   * `n` gets copies of `fill` in front until it has length `n`; a longer
   * one is returned unchanged.
   */
  function PadStart(s: string, n: nat, fill: char): (r: string)
    ensures |r| == if |s| < n then n else |s|
    ensures r[|r| - |s|..] == s
    ensures forall i :: 0 <= i < |r| - |s| ==> r[i] == fill
  {
    if |s| < n then Repeat(fill, n - |s|) + s else s
  }

  /** Index of the first `c` in `s`, or `|s|` when `s` has none. */
  function IndexOf(s: string, c: char): (i: nat)
    ensures i <= |s|
    ensures i < |s| ==> s[i] == c
    ensures forall j :: 0 <= j < i ==> s[j] != c
  {
    if |s| == 0 then 0
    else if s[0] == c then 0
    else 1 + IndexOf(s[1..], c)
  }

  /** `parts.join(sep)`. */
  function Join(parts: seq<string>, sep: string): (r: string)
    ensures |parts| == 0 ==> r == ""
    ensures |parts| > 0 ==> parts[0] <= r
  {
    if |parts| == 0 then ""
    else if |parts| == 1 then parts[0]
    else parts[0] + sep + Join(parts[1..], sep)
  }

  /**
   * `s.split(sep)` for a one-character separator: the pieces between
   * separators, built from the last character backwards.
   */
  function Split(s: string, sep: char): (parts: seq<string>)
    ensures |parts| >= 1
    decreases |s|
  {
    if |s| == 0 then [""]
    else
      var tail := Split(s[1..], sep);
      if s[0] == sep then [""] + tail
      else [[s[0]] + tail[0]] + tail[1..]
  }

  /** A string without the separator splits into itself alone. */
  lemma {:induction false} SplitWithoutSeparator(s: string, sep: char)
    requires sep !in s
    ensures Split(s, sep) == [s]
    decreases |s|
  {
    if |s| > 0 {
      SplitWithoutSeparator(s[1..], sep);
      assert [s[0]] + s[1..] == s;
    }
  }

  /** A separator-free first piece is split off at the first separator. */
  lemma {:induction false} SplitAfterPiece(piece: string, sep: char, rest: string)
    requires sep !in piece
    ensures Split(piece + [sep] + rest, sep) == [piece] + Split(rest, sep)
    decreases |piece|
  {
    var s := piece + [sep] + rest;
    if |piece| == 0 {
      assert s == [sep] + rest;
      assert s[1..] == rest;
    } else {
      SplitAfterPiece(piece[1..], sep, rest);
      assert s[0] == piece[0];
      assert s[1..] == piece[1..] + [sep] + rest;
      assert [piece[0]] + piece[1..] == piece;
    }
  }

  /** No piece of a split contains the separator. */
  lemma {:induction false} SplitPiecesSeparatorFree(s: string, sep: char)
    ensures forall k :: 0 <= k < |Split(s, sep)| ==> sep !in Split(s, sep)[k]
    decreases |s|
  {
    if |s| > 0 {
      SplitPiecesSeparatorFree(s[1..], sep);
      var tail := Split(s[1..], sep);
      if s[0] != sep {
        assert sep !in [s[0]] + tail[0];
      }
    }
  }

  /** Putting a character in front of the first piece puts it in front of the join. */
  lemma JoinPrepend(c: char, parts: seq<string>, sep: string)
    requires |parts| >= 1
    ensures Join([[c] + parts[0]] + parts[1..], sep) == [c] + Join(parts, sep)
  {
    var first := [c] + parts[0];
    if |parts| > 1 {
      JoinCons(first, parts[1..], sep);
      JoinCons(parts[0], parts[1..], sep);
      assert parts == [parts[0]] + parts[1..];
    }
  }

  /** Joining the pieces of a split with the same separator gives back the string. */
  lemma {:induction false} JoinSplit(s: string, sep: char)
    ensures Join(Split(s, sep), [sep]) == s
    decreases |s|
  {
    if |s| > 0 {
      var tail := Split(s[1..], sep);
      JoinSplit(s[1..], sep);
      if s[0] == sep {
        JoinCons("", tail, [sep]);
      } else {
        JoinPrepend(s[0], tail, [sep]);
      }
      assert [s[0]] + s[1..] == s;
    }
  }

  /** Splitting a join of separator-free pieces gives back the pieces. */
  lemma {:induction false} SplitJoin(parts: seq<string>, sep: char)
    requires |parts| >= 1
    requires forall k :: 0 <= k < |parts| ==> sep !in parts[k]
    ensures Split(Join(parts, [sep]), sep) == parts
    decreases |parts|
  {
    if |parts| == 1 {
      SplitWithoutSeparator(parts[0], sep);
    } else {
      SplitJoin(parts[1..], sep);
      JoinCons(parts[0], parts[1..], [sep]);
      SplitAfterPiece(parts[0], sep, Join(parts[1..], [sep]));
      assert parts == [parts[0]] + parts[1..];
    }
  }

  /** Joining a non-empty tail after a first piece puts exactly one separator between them. */
  lemma JoinCons(first: string, rest: seq<string>, sep: string)
    requires |rest| >= 1
    ensures Join([first] + rest, sep) == first + sep + Join(rest, sep)
  {
    assert ([first] + rest)[1..] == rest;
  }

  /** Swapping the only piece of a separator-free string for `head` gives `head`. */
  lemma ReplaceWholeString(s: string, sep: char, head: string)
    requires sep !in s
    ensures Join([head] + Split(s, sep)[1..], [sep]) == head
  {
    SplitWithoutSeparator(s, sep);
    assert [head] + Split(s, sep)[1..] == [head];
  }

  /** Everything before the first separator is separator-free. */
  lemma PrefixBeforeIndexOf(s: string, sep: char)
    ensures sep !in s[..IndexOf(s, sep)]
  {
    var i := IndexOf(s, sep);
    forall j | 0 <= j < i ensures s[..i][j] != sep {
      assert s[..i][j] == s[j];
    }
  }

  /** Swapping the first piece of a split for `head` and joining again keeps everything from the first separator on. */
  lemma ReplacePieceBeforeSeparator(piece: string, rest: string, sep: char, head: string)
    requires sep !in piece
    ensures Join([head] + Split(piece + [sep] + rest, sep)[1..], [sep]) == head + [sep] + rest
  {
    SplitAfterPiece(piece, sep, rest);
    var tail := Split(rest, sep);
    assert Split(piece + [sep] + rest, sep)[1..] == tail;
    JoinCons(head, tail, [sep]);
    JoinSplit(rest, sep);
  }

  /** Two separator-free pieces joined by one separator split back into the two pieces. */
  lemma SplitPair(a: string, b: string, sep: char)
    requires sep !in a && sep !in b
    ensures Split(a + [sep] + b, sep) == [a, b]
  {
    JoinCons(a, [b], [sep]);
    SplitJoin([a, b], sep);
  }
}
